=== FILE: README.md ===
# clustd core in Dafny

A model of the decision logic of clustd, a small cluster-membership daemon.
The peers of a cluster talk over encrypted WebSocket channels, elect the peer
with the lowest id as master, and tell local drivers when this process gains
or loses the master role.

The model covers six parts:

- **Secure channel** (`Channel`, `Handshake`; src/client.ts):
  - the per-message key material: the secret, the big-endian counter, and, once initialized, the ticket;
  - the pre-incremented counters of each direction;
  - the `IV ++ tag ++ ciphertext` framing;
  - the gating of `sendMessage`;
  - the hello state machine.

  SHA-256, AES-128-GCM and JSON are opaque functions carried in a `Crypto`
  value. What they are trusted to do is named by hypothesis predicates
  (`Sound`, `Authentic`, and `Separates` for the one pair of key materials a
  lemma is about), which the two-party lemmas assume explicitly.
- **Peer machine** (`Machine`; src/machine/generic_machine.ts):
  - `open`, `start`, `stop` and `setClient`;
  - `send` with its request-id counter and pending-request table;
  - timeouts, responses and stops, which settle requests;
  - inbound dispatch;
  - identity binding at handshake;
  - the ping staleness test;
  - the connection timer.

  Timers and events are explicit transition functions, and time is a `nat` parameter.
- **Cluster peer** (`ClusterMachine`; src/machine/cluster_machine.ts): the `get_master` request handler.
- **Registry** (`Cluster`; src/cluster.ts, plus the start-up decision of src/index.ts):
  - registration and replacement;
  - the 'should_accept_handshake' listener's admission rule, taken on its own (nothing modelled emits that event);
  - election of the lowest id;
  - the single `master` flag;
  - reconciliation of the peers' views of the master;
  - re-election when the master's connection drops.

  JavaScript's `<` on ids is `StringOrder.Below`.
- **Driver manager** (`DriverManager`; src/driver_manager.ts): the edge-triggered master-role notifier and the driver registry.
- **Configuration** (`Config`; src/config.ts): the section-wise merge and the required-field validation.

Shared pieces:

- `Wrappers`: `Option` and `Result`.
- `Bytes`: big-endian u32 encoding.
- `Wire`: the JSON-level message record. A field the source only tests for truthiness uses `""` or `0` for "absent".

## Model

| member | source | states |
|---|---|---|
| Bytes.EncodeU32 | src/client.ts:214 | the counter or ticket is written as exactly four bytes |
| Bytes.DecodeEncode | src/client.ts:214-215 | reading back the four big-endian bytes gives the 32-bit value that was written |
| Bytes.EncodeDecode | src/client.ts:214-215 | every four bytes are the encoding of the value they read as |
| Bytes.EncodeInjective | src/client.ts:214-215 | different 32-bit values are written as different bytes |
| Wire.Truthy | src/machine/generic_machine.ts:170 | `if (resp)`: undefined, false, 0 and the empty string are falsy, every object is truthy |
| Channel.NewChannel | src/client.ts:20-34 | a new client has both counters at 0, no ticket, is not initialized and has no hello pending |
| Channel.Open | src/client.ts:28 | `open` is the socket being in the OPEN state |
| Channel.Close | src/client.ts:56-60 | after `close` the socket is not open, and nothing else about the channel changes |
| Channel.Ping | src/client.ts:62-66 | a ping goes out exactly when the socket is open |
| Channel.Truncate | src/client.ts:218 | the key is a prefix of the digest, and 16 bytes long when the digest is at least that long |
| Channel.KeyMaterial | src/client.ts:211-215 | succeeds iff the counter (and, once initialized, the ticket) fits in 32 bits; length is secret+4 or secret+8; the secret is the prefix, the counter reads back at offset SECRET_LEN and the ticket at SECRET_LEN+4 |
| Channel.KeyMaterialInjective | src/client.ts:211-215 | different secrets, counters or (once initialized) tickets give different key material |
| Channel.KeyMaterialDistinct | src/client.ts:211-215 | key material built with and without a ticket differs when the secrets have equal length, and otherwise whenever secret, counter or ticket differ |
| Channel.DeriveKey | src/client.ts:211-219 | the key is the truncated digest of this channel's key material for the counter, and fails exactly when the material does |
| Channel.Split | src/client.ts:192-194 | the three slices concatenate back to the buffer; a buffer of at least 28 bytes yields a 12-byte IV and a 16-byte tag |
| Channel.SplitAssemble | src/client.ts:180-194 | a frame built from a 12-byte IV and a 16-byte tag is 28+|ct| bytes long and splits back into the same IV, tag and ciphertext |
| Channel.Encrypt | src/client.ts:176-187 | the outgoing counter is pre-incremented; a frame is produced iff the key material for the new counter exists; the frame starts with the IV |
| Channel.Decrypt | src/client.ts:189-209 | the incoming counter is pre-incremented even on failure; a decryption failure closes the socket and raises the "verify the cluster secret" error; a JSON failure leaves the socket as it was |
| Channel.SendMessage | src/client.ts:148-166 | "connection not initialized" unless initialized or forced, checked first; then "connection closed" on a closed socket; only otherwise a counter is consumed by `Encrypt` |
| Channel.SendHello | src/client.ts:168-174 | the hello carries this side's ticket, id and address and is sent forced: only a closed socket stops it, not the missing initialization |
| Channel.Init | src/client.ts:36-41 | only the accepting side takes the ticket and sends its hello; the dialling side does nothing |
| Channel.Receive | src/client.ts:74-101 | the outcome is fixed by what decryption yields: a failure is raised and nothing is sent; a hello while initialized closes the channel, emits nothing and keeps the ticket; otherwise a hello overwrites the ticket and only the dialling side replies; `initialized` never changes here; a non-hello is always delivered, and closes the channel before initialization |
| Channel.Complete | src/client.ts:86-89 | 'handshake_complete' sets `initialized` exactly when a hello registered the listener |
| Channel.InitSettled | src/client.ts:42-53 | the handshake timer resolves iff the channel is initialized, and otherwise fails with "client handshake failed" |
| Handshake.RoundTrip | src/client.ts:176-209 | with the same secret, matching counters and ticket, a frame decrypts to the very message and both counters advance in step |
| Handshake.MismatchRejected | src/client.ts:195-207 | a frame is refused by a receiver out of step with the sender in secret, counter, initialization or ticket, including mid-handshake when only one side is initialized: the receiver closes and raises the secret error (given the digest separates the two materials) |
| Handshake.EncryptRun | src/client.ts:176-187 | a run of n `encryptMsg` calls leaves the outgoing counter n higher and yields one result per message |
| Handshake.Written | src/client.ts:148-166 | only produced frames reach the socket; when every call produced one, the socket carries all of them in order |
| Handshake.DecryptRun | src/client.ts:189-209 | a run of `decryptMsg` calls advances the incoming counter once per frame and yields one result per frame |
| Handshake.EncryptRunCounters | src/client.ts:176-187 | the i-th message of a run is sealed under counter outgoing+i+1, so no key material is used twice on a channel |
| Handshake.EncryptRunOk | src/client.ts:211-215 | a run of `encryptMsg` calls produces a frame for every message as long as the counter stays below 2^32, and the ticket too once initialized, since `writeUInt32BE` throws only beyond that |
| Handshake.RunRoundTrip | src/client.ts:176-209 | a run of messages is read at an in-step receiver, in order, as exactly those messages, and both sides end in step |
| Handshake.RunFrameRefusedOutOfStep | src/client.ts:176-207 | the i-th frame of a run is refused by a receiver out of step at that message, so a frame cannot be replayed, skipped ahead or reordered |
| Handshake.HandshakeAgreesOnTicket | src/client.ts:78-90 | after both hellos both sides hold the accepting side's ticket, are initialized, each side was shown the peer's own hello for identity verification (both owners are taken to accept it), and their counters stay in step both ways |
| Handshake.HelloAfterHandshakeCloses | src/client.ts:78-83 | a hello from a peer in step with an initialized receiver is decrypted and then closes the receiver without being passed up, so the ticket cannot change after the handshake |
| Handshake.ZeroTicketHelloIsNotHello | src/client.ts:78-97 | a hello with ticket 0 is treated as an ordinary message: the dialling side closes and the handshake cannot complete |
| Channel.CipherHypothesesSatisfiable | src/client.ts:176-209 | some cipher meets the 16-byte tag, decrypt-after-encrypt and `Authentic` hypotheses together, so the lemmas resting on them are not vacuous |
| Machine.Local | src/machine/generic_machine.ts:43 | a machine is local exactly when its host is this process's remote address |
| Machine.Open | src/machine/generic_machine.ts:38-40 | a local machine is always open; a remote one exactly when active with an open client |
| Machine.NewMachine | src/machine/generic_machine.ts:38-53 | a new machine is active iff local, open iff local, and a local machine takes the cluster id |
| Machine.Start | src/machine/generic_machine.ts:57-61 | a no-op on a local or active machine; otherwise only `active` becomes true |
| Machine.Stop | src/machine/generic_machine.ts:63-80 | a no-op when local; otherwise inactive, clientless, lastPong 0, and every pending request rejected with "stopped" |
| Machine.SetClient | src/machine/generic_machine.ts:82-101 | asserts on local, inactive, id-less or host-less machines; refuses while the current client is open; otherwise attaches the client |
| Machine.Send | src/machine/generic_machine.ts:103-137 | "disconnected" iff the machine is not open, changing nothing; otherwise the current id is used and the counter incremented, exactly one entry is filed under a fresh id, and a send error removes it again |
| Machine.Settle | src/machine/generic_machine.ts:113-124 | only the given id leaves the table, and it settles only if it was pending |
| Machine.ExpireDue | src/machine/generic_machine.ts:109-111 | exactly the entries whose 3000 ms deadline has passed reject with "timed out"; the others stay pending |
| Machine.Apply | src/machine/generic_machine.ts:109-124 | a response, the timers or `stop` settle only pending requests and remove exactly those they settle |
| Machine.SettlesAtMostOnce | src/machine/generic_machine.ts:109-124 | over any run of responses, timeouts and stops a request settles at most once, and never if it is not pending |
| Machine.ResponseResolvesRequest | src/machine/generic_machine.ts:190-195 | the response carrying a sent request's id resolves it with the response's data and restores the table |
| Machine.Reply | src/machine/generic_machine.ts:164-189 | a truthy result is answered with data, a falsy one with "unrecognized method", a thrown one with "failed to process message", always under the request's id |
| Machine.OnMessage | src/machine/generic_machine.ts:163-199 | a request is answered with `Reply` for its id and outcome; if that send is refused and the handler returned, "failed to process message" is sent instead, otherwise nothing; a response settles its id with its data and ignores `error`; anything else is dropped |
| Machine.RequestDelivered | src/machine/generic_machine.ts:103-137 | the request `send` writes on an initialized open client is delivered by a peer channel in step as `{req_id, method}` with the id `send` used, and the client's channel is the one advanced by one frame |
| Machine.ReplyResolves | src/machine/generic_machine.ts:163-195 | the reply a responder's handler writes for a request is delivered by the requester's channel in step with it, and the requester's handler settles that id with the handler's truthy value, or undefined, and removes it from the pending table |
| Machine.RequestRoundTrip | src/machine/generic_machine.ts:103-195 | one remote call end to end: the request the requester sends is delivered to the responder, whose reply is delivered back and resolves the pending request with the handler's truthy value, or undefined, and restores the table |
| Machine.HandshakeVerify | src/machine/generic_machine.ts:140-161 | binding succeeds iff the id matches any id already set, the hello's id and address are non-empty, and no open client is attached; any failure closes the client and leaves the machine clientless |
| Machine.OnClose | src/machine/generic_machine.ts:201-208 | 'close' is emitted iff the machine had a client, which it drops |
| Machine.OnPong | src/machine/generic_machine.ts:90-98 | a ping or pong records the time and changes nothing else |
| Machine.Stale | src/machine/generic_machine.ts:225-226 | a pong is stale when one has been seen and more than two ping intervals have passed since |
| Machine.PingTick | src/machine/generic_machine.ts:213-237 | an open client is closed iff lastPong is not 0 and more than two intervals have passed; otherwise it is pinged |
| Machine.ConnectionDue | src/machine/generic_machine.ts:239-251 | asserts on a local machine; dials iff the machine is active and not open |
| Machine.AttemptSettled | src/machine/generic_machine.ts:247-271 | a skipped attempt never settles its caller; a failed dial always re-arms with the defaults (5000 ms, no rejection) and rejects only under a rejecting schedule; only a successful dial emits 'open' |
| Machine.OnlyFirstAttemptRejects | src/machine/generic_machine.ts:239-270 | in a chain of attempts only the first runs under the caller's arguments; every later one follows a failed dial, runs under the defaults and cannot reject |
| Machine.DialChannel | src/machine/generic_machine.ts:252-255 | the classification header spends the first counter of a fresh dialling channel |
| Machine.Next | src/machine/generic_machine.ts:57-237 | over every transition only a `send` that passes the `open` check consumes a request id, and every pending id stays below the next one |
| Machine.IdsNeverReused | src/machine/generic_machine.ts:107 | over any run of transitions the ids successive sends use strictly increase, so no id is handed out twice, and the pending table only holds ids already handed out |
| StringOrder.Least | src/cluster.ts:99-105 | the first element after sorting ascending is below every other candidate |
| StringOrder.Below | src/cluster.ts:102-104 | the `<` on ids: lexicographic, with a proper prefix below its extensions |
| ClusterMachine.New | src/machine/cluster_machine.ts:5-12 | a cluster machine has type 'cluster', starts without the master flag, and is active iff local |
| ClusterMachine.OnRequest | src/machine/cluster_machine.ts:18-32 | `get_master` returns `{master: id}` with the current master id, fails its assertion without one; any other method yields undefined |
| ClusterMachine.Answer | src/machine/cluster_machine.ts:18-31 | the reply to `get_master` carries the master id, or the processing error when none is assigned; other methods draw "unrecognized method" |
| Cluster.NewRegistry | src/cluster.ts:17-21 | a registry starts with only the local machine and no master |
| Cluster.Retire | src/cluster.ts:26-32 | a machine tracked under a given prevId is stopped and dropped from the map; nothing else changes |
| Cluster.Register | src/cluster.ts:23-51 | fails iff id-less or inactive; accepted iff the id is untracked or its holder is not open; a refusal leaves the map as is; other ids are untouched; when the machine under prevId is the one being registered it is stored stopped; the registry invariant is kept |
| Cluster.RenamedMachineStoredStopped | src/cluster.ts:26-49 | a machine registered under a new id, while its old id is retired, ends up tracked but inactive and not open, because `old.stop()` stopped it |
| Cluster.ShouldAccept | src/cluster.ts:68-73 | a handshake is accepted iff the id is untracked or its holder is not open; a refused machine is stopped; `register` would then accept an accepted one |
| Cluster.OnOpen | src/cluster.ts:75-79 | only the machine's first 'open' runs the listener: it registers the machine and stops it when refused; a later 'open' changes nothing |
| Cluster.ReopenIsIgnored | src/cluster.ts:75-79 | a machine reopening while another open machine holds its id stays untracked and running, whereas at its first 'open' it would have been refused and stopped |
| Cluster.Eligible | src/cluster.ts:99-102 | exactly the tracked machines that are active and open |
| Cluster.Candidates | src/cluster.ts:99-102 | the local id is always in the running, so there is always a candidate |
| Cluster.SetFlag | src/cluster.ts:107-111 | only the referenced machine's flag changes |
| Cluster.Uncrown | src/cluster.ts:107-109 | clearing the old master's flag leaves no flag set |
| Cluster.Crown | src/cluster.ts:107-115 | the flag moves to the new master; at most one machine carries it; `isMaster` iff the master is the local machine |
| Cluster.AssignMaster | src/cluster.ts:93-116 | unforced always succeeds and picks the least candidate id; forced succeeds iff the id is tracked; flags follow the master; `isMaster` iff master id == local id |
| Cluster.ElectionIdempotent | src/cluster.ts:93-116 | re-running the election on its own result picks the same master |
| Cluster.Agree | src/cluster.ts:123-136 | the agreed machine, if any, is tracked |
| Cluster.AgreeDecides | src/cluster.ts:123-136 | the fold yields none, the single named tracked machine, or the mismatch error exactly as the set of named tracked ids is empty, a singleton, or larger |
| Cluster.GetRemoteMaster | src/cluster.ts:118-137 | with no tracked machines there is no remote master; an agreed master is tracked |
| Cluster.GetRemoteMasterDecides | src/cluster.ts:118-137 | untracked answers are skipped; two different tracked ids throw "fatal master mismatch"; otherwise the agreed machine or none |
| Cluster.Bootstrap | src/index.ts:24-30 | without a remote master the process elects locally, otherwise it forces the agreed master; a reconciliation error aborts |
| Cluster.CurrentMaster | src/cluster.ts:87-90 | the master query reports the master's id iff there is a master |
| Cluster.AnswerGetMaster | src/cluster.ts:87-90 | a peer asking `get_master` gets the registry's current master id, or the processing error if none is assigned |
| Cluster.OnMachineClose | src/cluster.ts:81-85 | the close of the master triggers a new election; any other close changes nothing |
| Cluster.ConnectionLost | src/cluster.ts:81-85 | a dropped connection keeps the tracked ids, and a machine without a client changes nothing |
| Cluster.MasterLossReelects | src/cluster.ts:81-85 | when the remote master's connection drops, the new election picks a different, least eligible id |
| Cluster.ThreePeersElectLowest | src/cluster.ts:99-115 | peers "a", "b", "c" all open: "b" elects "a" and is not master |
| DriverManager.NewManager | src/driver_manager.ts:9-10 | a manager starts with no drivers and not master |
| DriverManager.OnAssignMaster | src/driver_manager.ts:13-26 | `changed` is the XOR of the stored and new role; the role is always stored; only on a change are the open drivers sent the new role; drivers that are not open, or whose request rejects, are stopped and stay registered |
| DriverManager.RepeatIsSilent | src/driver_manager.ts:14-16 | announcing the role the manager already holds triggers nothing and changes nothing |
| DriverManager.FiredExactlyOnChange | src/driver_manager.ts:13-26 | over any run of announcements in which sent requests succeed, every open driver is sent the new role exactly at the events that change it, and drivers that are not open are never sent anything |
| DriverManager.Register | src/driver_manager.ts:29-39 | fails unless the driver is open and has an id; the driver replaces any entry under its id and is triggered with the current role |
| DriverManager.OnDriverCloseAsWritten | src/driver_manager.ts:33-36 | the listener deletes whatever is stored under the closing driver's id |
| DriverManager.OnDriverClose | src/driver_manager.ts:33-36 | the closing driver is stopped and removed only if it is still the stored one; other ids are untouched |
| DriverManager.RegisterThenClose | src/driver_manager.ts:29-36 | a registered driver that closes is removed again, and the rest of the registry is as before |
| DriverManager.ReplacedCloseEvictsReplacement | src/driver_manager.ts:32-36 | as written, a replaced driver's close evicts its still-open replacement |
| DriverManager.ReplacedCloseKeepsReplacement | src/driver_manager.ts:33-36 | the intended listener keeps the replacement |
| DriverManager.CloseRemovesOnlyItself | src/driver_manager.ts:33-36 | a close never removes an entry from another registration |
| Config.Validate | src/config.ts:35-45 | passes iff the configuration is complete; the first failing check in source order gives the message |
| Config.SetConfig | src/config.ts:30-33 | sections the argument names replace the current ones wholesale, the others are kept, and the result is validated |
| Config.SetConfigIdempotent | src/config.ts:30-33 | setting the same configuration twice equals setting it once |
| Config.FullPatchOverrides | src/config.ts:30-33 | a configuration naming both sections does not depend on the previous one |
| Config.PortZeroRejected | src/config.ts:38 | a port of 0 is rejected with the bind_port message |
| Config.MachineListContentsIgnored | src/config.ts:44 | only the presence of the machine list is checked, so an empty list passes |

## Left out

- Sockets, the `ws` server, `Date.now`, timers and `crypto.randomBytes` are not modelled as such:
  - time, IVs and tickets are parameters;
  - socket events and timer expiry are transition functions;
  - promise interleavings are not modelled, and each handler runs to completion.
- SHA-256, AES-128-GCM, `JSON.stringify` and `JSON.parse` are uninterpreted functions. What they promise is stated as hypotheses (`Channel.Sound`, `Channel.Authentic`, `Channel.Separates`), which the lemmas that need them assume.
- Handshake.RoundTrip, Handshake.MismatchRejected, Handshake.RunRoundTrip, Handshake.RunFrameRefusedOutOfStep, Handshake.HandshakeAgreesOnTicket, Machine.RequestDelivered, Machine.ReplyResolves, Machine.RequestRoundTrip: these hold only under those hypotheses on the primitives. `Channel.CipherHypothesesSatisfiable` exhibits a cipher meeting the cipher part of `Sound` together with `Authentic`. The JSON part of `Sound` (parse inverts stringify) is assumed without a witness.
- Handshake.MismatchRejected, Handshake.RunFrameRefusedOutOfStep: collision freedom of the truncated digest is asked only of the two key materials involved (`Channel.Separates`), because no function into 16-byte keys is injective on all key materials. When only one side is initialized, refusal is proved only for secrets of equal length. For secrets of different lengths the materials can coincide (`s ++ BE32(n) == s' ++ BE32(n') ++ BE32(t)` when `s` extends `s'` by four bytes), and the frame is then accepted.
- `joinAll` (src/cluster.ts:53-65): a loop of dials over the configured hosts. Its steps are modelled (`Machine.ConnectionDue`, `Machine.AttemptSettled`, `Machine.DialChannel`, `Cluster.ShouldAccept`, `Cluster.OnOpen`); the loop is not.
- The incoming-connection handler of src/index.ts:44-66: socket plumbing around `initClient` and `register`.
- The `listen()` socket-open promise, the socket 'error' handler and `setSocket` (src/client.ts:68-71, 117-145): plumbing with no decision in it.
- Write errors reported by the socket's send callback: for a request they are modelled only as a settling event (`Machine.Settle` with a rejection). For a reply, such an error rejects the awaited `sendMessage` and so triggers the "failed to process message" resend (src/machine/generic_machine.ts:171-186); that path is not modelled, since `Machine.OnMessage` resends only when the send is refused before anything is written.
- `params` of requests: always omitted, because no modelled handler reads them.
- Logger, debug output, `globalId`, and the YAML and file loading of src/config.ts:23-28.
- The 'cluster_master_get' and 'cluster_master_current' event round trip is collapsed into the `currentMaster` parameter of `ClusterMachine.OnRequest`.
- `removeAllListeners`: its one observable consequence is modelled, namely that a driver stopped after a failed trigger never runs its close listener and so stays registered.
- Cluster.AssignMaster: minimality is stated under `Cluster.Wf`, where every machine is tracked under its own id. The source sorts with a comparator that never returns 0. If the local machine and a tracked machine share an id, the model crowns the local one; the id is the same either way.
- StringOrder.Below, StringOrder.Least: ids are compared by code point. JavaScript compares UTF-16 code units, and the two orders differ only for characters outside the Basic Multilingual Plane.
- Cluster.Crown: the master is referenced by its key in the map, not by object identity. A master object replaced under its key is represented by its replacement, which carries no flag.
- Cluster.Agree: the source looks ids up in a plain object (src/cluster.ts:13, 126), so an id that names an `Object.prototype` member, such as "toString", finds that member. The code then throws "fatal master mismatch on the network" whenever a tracked id is named as well, and otherwise returns that member as the master. The model looks ids up in a map and skips such an id as untracked.
- DriverManager.OnAssignMaster: the triggers are awaited one after another, each up to the 3000 ms request timeout. Events arriving in between, and the order of the drivers, are not modelled; each event is handled to completion.
- Config.Validate: settings are typed. A non-numeric port, NaN, or a section of the wrong type is not represented.
- Message fields (`Wire.Msg`) are typed too. `hello_world` is a natural number, and `req_id` and `res_id` are optional natural numbers. A string id such as "0", which finds request 0 in the plain-object table, and a truthy negative or fractional `hello_world`, on which `writeUInt32BE` throws, are not represented.
- DriverManager.Register: the initial `trigger` is neither awaited nor caught (src/driver_manager.ts:38). Its rejection changes no state the model tracks: the driver stays registered and running, unlike after a failed trigger in the 'assign_master' listener. The unhandled promise rejection it raises at the process level is not modelled.
- Cluster: src/cluster.ts and src/index.ts take `ClusterMachine` and `Client` from a library that is not part of this model. The registry is modelled over the in-repo generic machine and client, which never emit 'should_accept_handshake'. So Cluster.ShouldAccept is that listener on its own, and Machine.HandshakeVerify does not consult it.
- Drivers: `RemoteDriver` (src/driver.ts:3) extends `DriverMachine`, from a library that is not part of this model. Drivers are modelled as `Machine.Machine`, so they are assumed to behave like the generic machine in `open`, `stop` and 'close'.

Behaviour of the code worth noting:

- A hello is refused as a protocol violation only when the channel is already `initialized`; a second hello before that overwrites the ticket.
- A JSON parse failure after a successful decryption throws outside the `try` and leaves the channel open.
- If any peer fails to answer `get_master`, start-up aborts (`Cluster.Bootstrap` returns the error); there is no fallback to a local election.

## Findings

| source | as written | input that shows it | evidently intended | confidence | as-written member | corrected member |
|---|---|---|---|---|---|---|
| src/driver_manager.ts:33-36 | the 'close' listener of a driver deletes `drivers[driver.id]` whatever is stored there | register driver A with id "x", then driver B with id "x"; A's connection closes | only the closing driver is removed; B, still open, stays registered | medium, not executed | DriverManager.ReplacedCloseEvictsReplacement | DriverManager.ReplacedCloseKeepsReplacement |

=== FILE: bytes.dfy ===
/** Bytes and the big-endian 32-bit encoding that Node's `Buffer.writeUInt32BE`
    performs. */
module Bytes {

  type byte = x: int | 0 <= x < 256

  type bytes = seq<byte>

  /** One past the largest value `writeUInt32BE` accepts; larger values make it throw. */
  const Two32: int := 0x1_0000_0000

  /** The four bytes `writeUInt32BE(n)` writes, most significant first. */
  function EncodeU32(n: nat): (r: bytes)
    requires n < Two32
    ensures |r| == 4
  {
    [n / 0x100_0000, (n / 0x1_0000) % 0x100, (n / 0x100) % 0x100, n % 0x100]
  }

  /** The value `readUInt32BE` reads back from four bytes. */
  function DecodeU32(b: bytes): (n: nat)
    requires |b| == 4
    ensures n < Two32
  {
    ((b[0] as int * 0x100 + b[1]) * 0x100 + b[2]) * 0x100 + b[3]
  }

  /** Reading back what was written gives the value that was written. */
  lemma DecodeEncode(n: nat)
    requires n < Two32
    ensures DecodeU32(EncodeU32(n)) == n
  {
    var n1, n2 := n / 0x100, n / 0x1_0000;
    assert n == n1 * 0x100 + n % 0x100;
    assert n2 == n1 / 0x100 && n1 == n2 * 0x100 + n1 % 0x100;
    assert n / 0x100_0000 == n2 / 0x100 && n2 == (n2 / 0x100) * 0x100 + n2 % 0x100;
  }

  /** Every four bytes are the encoding of the value they decode to. */
  lemma EncodeDecode(b: bytes)
    requires |b| == 4
    ensures EncodeU32(DecodeU32(b)) == b
  {
    var n2 := b[0] as int * 0x100 + b[1];
    var n1 := n2 * 0x100 + b[2];
    var n := n1 * 0x100 + b[3];
    assert n / 0x100 == n1 && n % 0x100 == b[3];
    assert n1 / 0x100 == n2 && n1 % 0x100 == b[2];
    assert n2 / 0x100 == b[0] && n2 % 0x100 == b[1];
    assert n / 0x1_0000 == n1 / 0x100;
    assert n / 0x100_0000 == n2 / 0x100;
  }

  /** Distinct values have distinct encodings. */
  lemma EncodeInjective(m: nat, n: nat)
    requires m < Two32 && n < Two32
    ensures EncodeU32(m) == EncodeU32(n) ==> m == n
  {
    DecodeEncode(m);
    DecodeEncode(n);
  }
}

=== FILE: channel.dfy ===
/** The secure channel of src/client.ts: per-message key derivation from the
    shared secret, a per-direction counter and (after the handshake) the session
    ticket; the `IV ++ Tag ++ Ciphertext` frame; the gating of outgoing messages;
    and the hello handshake.

    SHA-256, AES-128-GCM and JSON stringify/parse are not modelled: they are the
    fields of a `Crypto` value, and what the proofs need of them is stated as a
    hypothesis (`Sound`, `Authentic`, `Separates`) on that value. The random
    IV and ticket are parameters. The socket is reduced to its `OPEN` flag. */
module Channel {
  import opened Wrappers
  import opened Bytes
  import opened Wire

  const IvLength: nat := 12
  const TagLength: nat := 16
  /** AES-128 keys are the first 16 bytes of the SHA-256 digest. */
  const KeyLength: nat := 16

  const NotInitialized: string := "connection not initialized"
  const ConnectionClosed: string := "connection closed"
  const DecryptionFailure: string := "message decryption failure, verify the cluster secret"
  /** `writeUInt32BE` throws a RangeError on a value that does not fit in 32 bits. */
  const OutOfRange: string := "value is out of range"
  /** `JSON.parse` throws on a plaintext that is not JSON. */
  const MalformedJson: string := "malformed JSON"
  const HandshakeFailed: string := "client handshake failed"

  /** What AES-128-GCM encryption produces: the authentication tag and the ciphertext. */
  datatype Sealed = Sealed(tag: bytes, ciphertext: bytes)

  /** The opaque primitives the channel calls. `seal(key, iv, plaintext)` and
      `open(key, iv, tag, ciphertext)` are AES-128-GCM; `open` answers `None`
      where Node's decipher throws. */
  datatype Crypto = Crypto(
    digest: bytes -> bytes,
    seal: (bytes, bytes, bytes) -> Sealed,
    open: (bytes, bytes, bytes, bytes) -> Option<bytes>,
    stringify: Msg -> bytes,
    parse: bytes -> Option<Msg>)

  /** The primitives do what their names promise: JSON parsing inverts
      stringification, tags are 16 bytes, and decryption under the sealing key
      recovers the plaintext. */
  ghost predicate Sound(c: Crypto) {
    && (forall m :: c.parse(c.stringify(m)) == Some(m))
    && (forall k, iv, p :: |c.seal(k, iv, p).tag| == TagLength)
    && (forall k, iv, p :: c.open(k, iv, c.seal(k, iv, p).tag, c.seal(k, iv, p).ciphertext) == Some(p))
  }

  /** Decryption under a key other than the sealing key is refused (the GCM tag check). */
  ghost predicate Authentic(c: Crypto) {
    forall k, k', iv, p :: k != k' ==> c.open(k', iv, c.seal(k, iv, p).tag, c.seal(k, iv, p).ciphertext) == None
  }

  /** The key materials `a` and `b`, if distinct, yield distinct keys: no
      collision in the truncated hash for this one pair. Keys are 16 bytes and
      key material is unbounded, so no digest separates every pair; each lemma
      asks it of the pair it is about. */
  ghost predicate Separates(c: Crypto, a: bytes, b: bytes) {
    a != b ==> Truncate(c.digest(a)) != Truncate(c.digest(b))
  }

  /** The process-wide configuration a channel reads: the UTF-8 bytes of
      `cluster.secret`, `cluster.id` and `server.remote_address`. */
  datatype Env = Env(secret: bytes, id: string, address: string)

  /** One `Client`. `server` is `serverSocket` (this side accepted the socket);
      `socketOpen` is `readyState === OPEN`; `ticket` is 0 while unset;
      `awaitingComplete` records the `once('handshake_complete')` listener a hello
      registers. */
  datatype Channel = Channel(
    env: Env,
    server: bool,
    socketOpen: bool,
    ticket: nat,
    incoming: nat,
    outgoing: nat,
    initialized: bool,
    awaitingComplete: bool)

  /** The constructor: both counters 0, not initialized. */
  function NewChannel(env: Env, server: bool, socketOpen: bool): (ch: Channel)
    ensures ch.env == env && ch.server == server && (Open(ch) <==> socketOpen)
    ensures ch.incoming == 0 && ch.outgoing == 0 && ch.ticket == 0
    ensures !ch.initialized && !ch.awaitingComplete
  {
    Channel(env, server, socketOpen, 0, 0, 0, false, false)
  }

  /** `open` of client.ts. */
  predicate Open(ch: Channel) {
    ch.socketOpen
  }

  /** `close()`: closes the socket if it is open; nothing else changes. */
  function Close(ch: Channel): (r: Channel)
    ensures !Open(r)
    ensures r.(socketOpen := ch.socketOpen) == ch
  {
    ch.(socketOpen := false)
  }

  /** `ping()`: whether a ping frame goes out. */
  function Ping(ch: Channel): (sent: bool)
    ensures sent <==> Open(ch)
  {
    ch.socketOpen
  }

  // ---------------------------------------------------------------- keys

  /** `digest().slice(0, 16)`: slicing clamps to the digest's length. */
  function Truncate(d: bytes): (k: bytes)
    ensures |d| >= KeyLength ==> |k| == KeyLength
    ensures k <= d
  {
    if |d| < KeyLength then d else d[..KeyLength]
  }

  /** The buffer `getKey(counter)` hashes: the secret, the counter as a
      big-endian u32 and, once initialized, the ticket as a big-endian u32.
      Either `writeUInt32BE` throws when its value needs more than 32 bits. */
  function KeyMaterial(secret: bytes, counter: nat, initialized: bool, ticket: nat): (r: Result<bytes>)
    ensures r.Ok? <==> counter < Two32 && (initialized ==> ticket < Two32)
    ensures r.Ok? ==> |r.value| == |secret| + (if initialized then 8 else 4)
    ensures r.Ok? ==> r.value[..|secret|] == secret
    ensures r.Ok? ==> DecodeU32(r.value[|secret|..|secret| + 4]) == counter
    ensures r.Ok? && initialized ==> DecodeU32(r.value[|secret| + 4..]) == ticket
  {
    if counter >= Two32 || (initialized && ticket >= Two32) then
      Err(OutOfRange)
    else
      var head := secret + EncodeU32(counter);
      DecodeEncode(counter);
      assert head[|secret|..|secret| + 4] == EncodeU32(counter);
      if initialized then
        var r := head + EncodeU32(ticket);
        DecodeEncode(ticket);
        assert r[..|secret|] == secret;
        assert r[|secret|..|secret| + 4] == EncodeU32(counter);
        assert r[|secret| + 4..] == EncodeU32(ticket);
        Ok(r)
      else
        Ok(head)
  }

  /** Key material built from different secrets, counters or (once initialized)
      tickets differs: key derivation is sensitive to every input. */
  lemma KeyMaterialInjective(s: bytes, n: nat, s': bytes, n': nat, initialized: bool, t: nat, t': nat)
    requires KeyMaterial(s, n, initialized, t).Ok? && KeyMaterial(s', n', initialized, t').Ok?
    requires s != s' || n != n' || (initialized && t != t')
    ensures KeyMaterial(s, n, initialized, t).value != KeyMaterial(s', n', initialized, t').value
  {
    var a, b := KeyMaterial(s, n, initialized, t).value, KeyMaterial(s', n', initialized, t').value;
    if |s| != |s'| {
      assert |a| != |b|;
    } else if s != s' {
      assert a[..|s|] != b[..|s'|];
    } else if n != n' {
      assert DecodeU32(a[|s|..|s| + 4]) != DecodeU32(b[|s'|..|s'| + 4]);
    } else {
      assert DecodeU32(a[|s| + 4..]) != DecodeU32(b[|s'| + 4..]);
    }
  }

  /** Key material built with and without a ticket differs when the secrets
      have the same length: the one with a ticket is four bytes longer. With
      secrets of different lengths this fails: a secret that extends the other
      by four bytes meets it (`s ++ BE32(n) == s' ++ BE32(n') ++ BE32(t')`). */
  lemma KeyMaterialDistinct(s: bytes, n: nat, i: bool, t: nat, s': bytes, n': nat, i': bool, t': nat)
    requires KeyMaterial(s, n, i, t).Ok? && KeyMaterial(s', n', i', t').Ok?
    requires s != s' || n != n' || i != i' || (i && t != t')
    requires i != i' ==> |s| == |s'|
    ensures KeyMaterial(s, n, i, t).value != KeyMaterial(s', n', i', t').value
  {
    if i != i' {
      assert |KeyMaterial(s, n, i, t).value| != |KeyMaterial(s', n', i', t').value|;
    } else {
      KeyMaterialInjective(s, n, s', n', i, t, t');
    }
  }

  /** `getKey(counter)` on this channel's current initialized flag and ticket. */
  function DeriveKey(c: Crypto, ch: Channel, counter: nat): (r: Result<bytes>)
    ensures r.Ok? <==> KeyMaterial(ch.env.secret, counter, ch.initialized, ch.ticket).Ok?
    ensures r.Ok? ==> r.value == Truncate(c.digest(KeyMaterial(ch.env.secret, counter, ch.initialized, ch.ticket).value))
  {
    var material :- KeyMaterial(ch.env.secret, counter, ch.initialized, ch.ticket);
    Ok(Truncate(c.digest(material)))
  }

  // ---------------------------------------------------------------- framing

  /** A frame on the wire: `IV(12) ++ Tag(16) ++ Ciphertext`. */
  datatype Frame = Frame(iv: bytes, tag: bytes, ciphertext: bytes)

  function Assemble(f: Frame): bytes {
    f.iv + f.tag + f.ciphertext
  }

  /** `decryptMsg`'s slicing at offsets 12 and 28. Slices clamp, so a short
      buffer yields short parts; concatenating the parts always gives the buffer back. */
  function Split(buf: bytes): (f: Frame)
    ensures Assemble(f) == buf
    ensures |buf| >= IvLength + TagLength ==> |f.iv| == IvLength && |f.tag| == TagLength
    ensures |buf| < IvLength + TagLength ==> f.ciphertext == []
  {
    var a := if |buf| < IvLength then |buf| else IvLength;
    var b := if |buf| < IvLength + TagLength then |buf| else IvLength + TagLength;
    assert buf[..a] + buf[a..b] + buf[b..] == buf;
    Frame(buf[..a], buf[a..b], buf[b..])
  }

  /** Splitting a frame built from a 12-byte IV and a 16-byte tag recovers exactly
      its three parts, and the frame is 28 bytes longer than the ciphertext. */
  lemma SplitAssemble(f: Frame)
    requires |f.iv| == IvLength && |f.tag| == TagLength
    ensures |Assemble(f)| == IvLength + TagLength + |f.ciphertext|
    ensures Split(Assemble(f)) == f
  {
    var buf := Assemble(f);
    assert buf[..IvLength] == f.iv;
    assert buf[IvLength..IvLength + TagLength] == f.tag;
    assert buf[IvLength + TagLength..] == f.ciphertext;
  }

  // ---------------------------------------------------------------- encrypt / decrypt

  /** The channel after an attempt to produce a frame, and the frame or the error thrown. */
  datatype Outgoing = Outgoing(channel: Channel, frame: Result<bytes>)

  /** The channel after an attempt to read a frame, and the message or the error thrown. */
  datatype Incoming = Incoming(channel: Channel, msg: Result<Msg>)

  /** `encryptMsg`: pre-increments the outgoing counter, then derives the key
      for the new counter and seals. The counter is consumed even when key
      derivation throws. */
  function Encrypt(c: Crypto, ch: Channel, iv: bytes, m: Msg): (r: Outgoing)
    requires |iv| == IvLength
    ensures r.channel == ch.(outgoing := ch.outgoing + 1)
    ensures r.frame.Ok? <==> KeyMaterial(ch.env.secret, ch.outgoing + 1, ch.initialized, ch.ticket).Ok?
    ensures r.frame.Ok? ==> |r.frame.value| >= IvLength && r.frame.value[..IvLength] == iv
    ensures Sound(c) && r.frame.Ok? ==> |r.frame.value| >= IvLength + TagLength
  {
    var ch' := ch.(outgoing := ch.outgoing + 1);
    match DeriveKey(c, ch', ch'.outgoing)
    case Err(e) => Outgoing(ch', Err(e))
    case Ok(key) =>
      var sealed := c.seal(key, iv, c.stringify(m));
      var buf := Assemble(Frame(iv, sealed.tag, sealed.ciphertext));
      assert buf[..IvLength] == iv;
      Outgoing(ch', Ok(buf))
  }

  /** `decryptMsg`: pre-increments the incoming counter even when decryption
      then fails. A key-derivation or authentication failure closes the socket
      and raises the "verify the cluster secret" error; a plaintext that is not
      JSON throws outside the `try` and so leaves the socket open. */
  function Decrypt(c: Crypto, ch: Channel, buf: bytes): (r: Incoming)
    ensures r.channel.(socketOpen := ch.socketOpen) == ch.(incoming := ch.incoming + 1)
    ensures r.msg.Err? && r.msg.error == DecryptionFailure ==> !Open(r.channel)
    ensures r.msg.Ok? || r.msg.error != DecryptionFailure ==> r.channel.socketOpen == ch.socketOpen
    ensures r.msg.Err? ==> r.msg.error in {DecryptionFailure, MalformedJson}
  {
    var ch' := ch.(incoming := ch.incoming + 1);
    var f := Split(buf);
    match DeriveKey(c, ch', ch'.incoming)
    case Err(_) => Incoming(Close(ch'), Err(DecryptionFailure))
    case Ok(key) =>
      match c.open(key, f.iv, f.tag, f.ciphertext)
      case None => Incoming(Close(ch'), Err(DecryptionFailure))
      case Some(plain) =>
        match c.parse(plain)
        case None => Incoming(ch', Err(MalformedJson))
        case Some(m) => Incoming(ch', Ok(m))
  }

  // ---------------------------------------------------------------- sending

  /** `sendMessage(data, force)`: rejects "connection not initialized" unless the
      channel is initialized or the send is forced, checked first; then rejects
      "connection closed" if the socket is not open; only then encrypts,
      consuming one outgoing counter. Write errors reported later by the socket
      are not modelled here. */
  function SendMessage(c: Crypto, ch: Channel, iv: bytes, m: Msg, force: bool): (r: Outgoing)
    requires |iv| == IvLength
    ensures !(ch.initialized || force) ==> r == Outgoing(ch, Err(NotInitialized))
    ensures (ch.initialized || force) && !Open(ch) ==> r == Outgoing(ch, Err(ConnectionClosed))
    ensures (ch.initialized || force) && Open(ch) ==> r == Encrypt(c, ch, iv, m)
    ensures r.channel.outgoing == ch.outgoing + (if (ch.initialized || force) && Open(ch) then 1 else 0)
  {
    if !(ch.initialized || force) then Outgoing(ch, Err(NotInitialized))
    else if !ch.socketOpen then Outgoing(ch, Err(ConnectionClosed))
    else Encrypt(c, ch, iv, m)
  }

  /** `sendHello()`: this side's hello, carrying its current ticket, sent
      forced, so it goes out before the channel is initialized. */
  function SendHello(c: Crypto, ch: Channel, iv: bytes): (r: Outgoing)
    requires |iv| == IvLength
    ensures Open(ch) ==> r == Encrypt(c, ch, iv, Hello(ch.ticket, ch.env.id, ch.env.address))
    ensures !Open(ch) ==> r == Outgoing(ch, Err(ConnectionClosed))
  {
    SendMessage(c, ch, iv, Hello(ch.ticket, ch.env.id, ch.env.address), true)
  }

  // ---------------------------------------------------------------- handshake

  /** What one socket event makes the channel emit to its owner. */
  datatype Event =
    | Silent
    | Failed(reason: string)    // the handler threw; the error is logged
    | Verify(hello: Msg)        // 'handshake_verify'
    | Deliver(msg: Msg)         // 'message'

  /** The channel after handling one event, the frames it wrote, and what it emitted. */
  datatype Step = Step(channel: Channel, sent: seq<bytes>, event: Event)

  /** The part of `init()` that runs once the socket is usable: the accepting
      (server) side picks its random ticket and sends its hello; the dialling side
      waits for the peer's hello. */
  function Init(c: Crypto, ch: Channel, iv: bytes, ticket: nat): (r: Step)
    requires |iv| == IvLength && ticket < Two32
    ensures !ch.server ==> r == Step(ch, [], Silent)
    ensures ch.server ==> r.channel.ticket == ticket && r.channel.initialized == ch.initialized
    ensures ch.server && r.event == Silent ==> |r.sent| == 1
  {
    if ch.server then
      var out := SendHello(c, ch.(ticket := ticket), iv);
      match out.frame
      case Err(e) => Step(out.channel, [], Failed(e))
      case Ok(f) => Step(out.channel, [f], Silent)
    else
      Step(ch, [], Silent)
  }

  /** The socket's 'message' handler set up by `listen()`, run to completion on
      one frame. A message whose `hello_world` is truthy is a hello: one received
      while initialized closes the channel; otherwise the ticket is overwritten
      with the received one, the dialling side replies with its own hello, and
      the hello is passed up for identity verification. Any other message
      received before initialization closes the channel and is still passed up. */
  function Receive(c: Crypto, ch: Channel, iv: bytes, buf: bytes): (r: Step)
    requires |iv| == IvLength
    ensures r.channel.initialized == ch.initialized
    ensures r.channel.incoming == ch.incoming + 1
    ensures r.event.Verify? ==>
              && !ch.initialized && r.event.hello.helloWorld != 0
              && r.channel.ticket == r.event.hello.helloWorld && r.channel.awaitingComplete
    ensures r.event.Verify? ==> |r.sent| == (if ch.server then 0 else 1)
    ensures r.event.Deliver? ==>
              && r.event.msg.helloWorld == 0
              && (Open(r.channel) <==> Open(ch) && ch.initialized)
    ensures r.sent != [] ==> !ch.server
    ensures var inc := Decrypt(c, ch, buf);
            inc.msg.Err? ==> r == Step(inc.channel, [], Failed(inc.msg.error))
    ensures var inc := Decrypt(c, ch, buf);
            inc.msg.Ok? && inc.msg.value.helloWorld != 0 && ch.initialized ==>
              r == Step(Close(inc.channel), [], Silent)
    ensures var inc := Decrypt(c, ch, buf);
            inc.msg.Ok? && inc.msg.value.helloWorld == 0 ==>
              r == Step(if ch.initialized then inc.channel else Close(inc.channel), [], Deliver(inc.msg.value))
  {
    var inc := Decrypt(c, ch, buf);
    match inc.msg
    case Err(e) => Step(inc.channel, [], Failed(e))
    case Ok(m) =>
      var ch1 := inc.channel;
      if m.helloWorld != 0 then
        if ch1.initialized then
          Step(Close(ch1), [], Silent)
        else
          var ch2 := ch1.(ticket := m.helloWorld);
          if ch2.server then
            Step(ch2.(awaitingComplete := true), [], Verify(m))
          else
            var out := SendHello(c, ch2, iv);
            match out.frame
            case Err(e) => Step(out.channel, [], Failed(e))
            case Ok(f) => Step(out.channel.(awaitingComplete := true), [f], Verify(m))
      else
        Step(if ch1.initialized then ch1 else Close(ch1), [], Deliver(m))
  }

  /** 'handshake_complete' emitted by the owner: the listener a hello registered
      marks the channel initialized. Without a received hello nothing changes. */
  function Complete(ch: Channel): (r: Channel)
    ensures r.initialized <==> ch.initialized || ch.awaitingComplete
    ensures !r.awaitingComplete || (ch.awaitingComplete && ch.initialized)
    ensures r.(initialized := ch.initialized, awaitingComplete := ch.awaitingComplete) == ch
  {
    if ch.awaitingComplete then ch.(initialized := true, awaitingComplete := false) else ch
  }

  /** The 5-second timer of `init()`: it resolves if the channel is initialized
      by then and rejects "client handshake failed" otherwise. */
  function InitSettled(ch: Channel): (r: Result<()>)
    ensures r.Ok? <==> ch.initialized
    ensures r.Err? ==> r.error == HandshakeFailed
  {
    if ch.initialized then Ok(()) else Err(HandshakeFailed)
  }

  // ---------------------------------------------------------------- the hypotheses can be met

  /** `k`'s length in unary, a zero, then `k` itself. */
  function Mark(k: bytes): (r: bytes)
    ensures |r| == 2 * |k| + 1
  {
    seq(|k|, _ => 1) + [0] + k
  }

  /** No key's marker is a prefix of another key's marker followed by anything. */
  lemma MarkPrefixFree(k: bytes, k': bytes, rest: bytes)
    requires k != k'
    ensures !(Mark(k') <= Mark(k) + rest)
  {
    var s := Mark(k) + rest;
    if |k'| < |k| {
      assert Mark(k')[|k'|] != s[|k'|];
    } else if |k| < |k'| {
      assert Mark(k')[|k|] != s[|k|];
    } else {
      var i :| 0 <= i < |k| && k[i] != k'[i];
      assert Mark(k')[|k| + 1 + i] != s[|k| + 1 + i];
    }
  }

  /** A toy cipher that puts the key's marker in front of the plaintext and
      opens only under the key whose marker it finds. */
  function ToyCrypto(): Crypto {
    Crypto(
      (d: bytes) => d,
      (k: bytes, iv: bytes, p: bytes) => Sealed(seq(TagLength, _ => 0), Mark(k) + p),
      (k: bytes, iv: bytes, tag: bytes, ct: bytes) => if Mark(k) <= ct then Some(ct[|Mark(k)|..]) else None,
      (m: Msg) => [],
      (b: bytes) => None)
  }

  /** The cipher half of `Sound`, together with `Authentic`, is met by a real
      `Crypto` value: the hypotheses the two-party lemmas rest on are not
      contradictory. */
  lemma CipherHypothesesSatisfiable()
    ensures var c := ToyCrypto();
            && (forall k, iv, p :: |c.seal(k, iv, p).tag| == TagLength)
            && (forall k, iv, p :: c.open(k, iv, c.seal(k, iv, p).tag, c.seal(k, iv, p).ciphertext) == Some(p))
            && Authentic(c)
  {
    var c := ToyCrypto();
    forall k, iv, p
      ensures c.open(k, iv, c.seal(k, iv, p).tag, c.seal(k, iv, p).ciphertext) == Some(p)
    {
      assert Mark(k) <= Mark(k) + p;
      assert (Mark(k) + p)[|Mark(k)|..] == p;
    }
    forall k, k', iv, p | k != k'
      ensures c.open(k', iv, c.seal(k, iv, p).tag, c.seal(k, iv, p).ciphertext) == None
    {
      MarkPrefixFree(k, k', p);
    }
  }
}

=== FILE: cluster.dfy ===
/** The cluster registry of src/cluster.ts: the remote cluster machines keyed
    by id, the local machine, and the current master; registration and
    replacement, election, reconciliation with the peers' views of the master,
    and the listeners it installs on every machine. The start-up decision of
    src/index.ts (join the agreed remote master or elect locally) is `Bootstrap`. */
module Cluster {
  import opened Wrappers
  import opened Wire
  import opened StringOrder
  import M = Machine
  import CM = ClusterMachine

  const ForcedUnregistered: string := "new forced master must be registered"
  const Mismatch: string := "fatal master mismatch on the network"
  /** The TypeError of reading `.master` from a reply without data. */
  const NoData: string := "cannot read properties of undefined (reading 'master')"

  /** Which machine object the `master` field points to: the local one, or the
      one tracked under a key. */
  datatype Ref = Self | Remote(key: string)

  /** The `master` field: the machine referred to and its id when it was elected. */
  datatype Master = Master(ref: Ref, id: string)

  /** One `Cluster`: `machines` excludes the local machine. */
  datatype Registry = Registry(local: M.Machine, machines: map<string, M.Machine>, master: Option<Master>)

  /** The registry invariant: the local machine is local, active and has an id;
      every machine is tracked under its own (non-empty) id. */
  predicate Wf(r: Registry) {
    && M.Local(r.local) && r.local.active && r.local.id != ""
    && (forall k :: k in r.machines ==> k != "" && r.machines[k].id == k)
  }

  /** The constructor: a registry holding only the local machine, no master. */
  function NewRegistry(home: string, clusterId: string): (r: Registry)
    ensures clusterId != "" ==> Wf(r)
    ensures r.machines == map[] && r.master.None? && r.local.id == clusterId
  {
    Registry(CM.New(home, clusterId, home), map[], None)
  }

  // ---------------------------------------------------------------- registration

  /** What the first step of `register` leaves: the registry without
      `prevId`, and the machine that was tracked there, stopped. */
  datatype Retired = Retired(registry: Registry, stopped: Option<M.Machine>)

  /** The first step of `register`: a machine tracked under a given `prevId`
      is stopped and dropped. */
  function Retire(r: Registry, prevId: string): (res: Retired)
    ensures res.registry.machines == if prevId != "" then r.machines - {prevId} else r.machines
    ensures res.registry.local == r.local && res.registry.master == r.master
    ensures res.stopped.Some? <==> prevId != "" && prevId in r.machines
    ensures res.stopped.Some? ==> res.stopped.value == M.Stop(r.machines[prevId]).machine
  {
    if prevId != "" && prevId in r.machines then
      Retired(r.(machines := r.machines - {prevId}), Some(M.Stop(r.machines[prevId]).machine))
    else Retired(r, None)
  }

  /** Whether `register` took the machine, the registry after, and the state
      the machine being registered is left in. */
  datatype Registered = Registered(accepted: bool, registry: Registry, machine: M.Machine)

  /** `register(machine, prevId)`: the machine must have an id and be active.
      After retiring `prevId`, a machine whose id is untracked is inserted; one
      whose tracked namesake is local or open is refused, leaving the map as it
      is; one whose namesake is not open replaces it. No other id is affected.
      Machines are values here, so object identity is an argument: `renamed`
      says that the machine tracked under `prevId` is this very machine, whose
      id changed since it was registered. Retiring `prevId` then stops the
      machine being registered, and it is stored stopped. */
  function Register(r: Registry, m: M.Machine, prevId: string, renamed: bool): (res: Result<Registered>)
    ensures res.Err? <==> m.id == "" || !m.active
    ensures res.Ok? ==>
              res.value.machine == if renamed && prevId != "" && prevId in r.machines then M.Stop(m).machine else m
    ensures res.Ok? ==>
              var before := Retire(r, prevId).registry.machines;
              && (res.value.accepted <==> m.id !in before || !M.Open(before[m.id]))
              && res.value.registry.machines == (if res.value.accepted then before[m.id := res.value.machine] else before)
              && res.value.registry.local == r.local && res.value.registry.master == r.master
    ensures res.Ok? ==> forall k :: k != m.id && k != prevId ==>
              (k in res.value.registry.machines <==> k in r.machines)
              && (k in r.machines ==> res.value.registry.machines[k] == r.machines[k])
    ensures Wf(r) && res.Ok? ==> Wf(res.value.registry)
  {
    if m.id == "" then Err("machine missing id")
    else if !m.active then Err("machine must be active")
    else
      var retired := Retire(r, prevId);
      var m' := if renamed && retired.stopped.Some? then M.Stop(m).machine else m;
      var r1 := retired.registry;
      if m.id in r1.machines && (M.Local(r1.machines[m.id]) || M.Open(r1.machines[m.id])) then
        Ok(Registered(false, r1, m'))
      else
        Ok(Registered(true, r1.(machines := r1.machines[m.id := m']), m'))
  }

  /** In the rename case the machine is stored stopped: inactive and not open,
      though tracked under its new id. */
  lemma RenamedMachineStoredStopped(r: Registry, m: M.Machine, prevId: string)
    requires m.id != "" && m.active && !M.Local(m)
    requires prevId != "" && prevId in r.machines && m.id !in r.machines
    ensures Register(r, m, prevId, true).Ok?
    ensures var reg := Register(r, m, prevId, true).value;
            && reg.accepted && m.id in reg.registry.machines
            && !reg.registry.machines[m.id].active && !M.Open(reg.registry.machines[m.id])
  {
  }

  /** The outcome of the 'should_accept_handshake' listener. */
  datatype Admission = Admission(accept: bool, machine: M.Machine)

  /** 'should_accept_handshake': accept exactly when no machine is tracked under
      the id or the tracked one is not open; a rejected machine is stopped. An
      accepted, active machine with an id is then taken by `register`. */
  function ShouldAccept(r: Registry, m: M.Machine): (a: Admission)
    ensures a.accept <==> m.id !in r.machines || !M.Open(r.machines[m.id])
    ensures a.accept ==> a.machine == m
    ensures !a.accept ==> a.machine == M.Stop(m).machine
    ensures a.accept && m.id != "" && m.active ==>
              Register(r, m, "", false) == Ok(Registered(true, r.(machines := r.machines[m.id := m]), m))
  {
    var tracked := m.id in r.machines;
    var accept := !tracked || !M.Open(r.machines[m.id]);
    Admission(accept, if accept then m else M.Stop(m).machine)
  }

  /** The 'open' listener, installed with `once`: only the machine's first
      'open' runs it (`first`). It registers the machine, stopping it when
      refused; a later 'open' changes nothing. */
  function OnOpen(r: Registry, m: M.Machine, first: bool): (res: Result<(Registry, M.Machine)>)
    ensures !first ==> res == Ok((r, m))
    ensures first ==> (res.Err? <==> m.id == "" || !m.active)
    ensures first && res.Ok? && Register(r, m, "", false).value.accepted ==>
              res.value == (r.(machines := r.machines[m.id := m]), m)
    ensures first && res.Ok? && !Register(r, m, "", false).value.accepted ==>
              res.value == (r, M.Stop(m).machine)
  {
    if !first then Ok((r, m))
    else
      var reg :- Register(r, m, "", false);
      Ok((reg.registry, if reg.accepted then reg.machine else M.Stop(reg.machine).machine))
  }

  /** Because the listener is `once`, a machine that reopens after another was
      registered and opened under its id is neither tracked nor stopped, while
      at its first 'open' it would have been refused and stopped. */
  lemma ReopenIsIgnored(r: Registry, m: M.Machine)
    requires m.id != "" && m.active && !M.Local(m)
    requires m.id in r.machines && M.Open(r.machines[m.id])
    ensures OnOpen(r, m, false) == Ok((r, m))
    ensures OnOpen(r, m, true) == Ok((r, M.Stop(m).machine)) && !M.Open(OnOpen(r, m, true).value.1)
  {
  }

  // ---------------------------------------------------------------- election

  /** The tracked machines that may be elected: active and open. */
  function Eligible(r: Registry): (s: set<string>)
    ensures forall k :: k in s <==> k in r.machines && r.machines[k].active && M.Open(r.machines[k])
  {
    set k | k in r.machines && r.machines[k].active && M.Open(r.machines[k])
  }

  /** Everyone in the running: the local machine (always active and open) and
      the eligible tracked machines. */
  function Candidates(r: Registry): (s: set<string>)
    ensures r.local.id in s && s != {}
  {
    {r.local.id} + Eligible(r)
  }

  /** The id of the machine a reference points to. */
  function RefId(r: Registry, ref: Ref): string
    requires ref.Remote? ==> ref.key in r.machines
  {
    match ref
    case Self => r.local.id
    case Remote(k) => r.machines[k].id
  }

  /** Sets the `master` flag of the machine a reference points to (if it is still tracked). */
  function SetFlag(r: Registry, ref: Ref, flag: bool): (r': Registry)
    ensures r'.machines.Keys == r.machines.Keys && r'.master == r.master
    ensures ref == Self ==> r'.local == r.local.(master := flag) && r'.machines == r.machines
    ensures ref.Remote? ==> r'.local == r.local
    ensures ref.Remote? ==> forall k :: k in r.machines ==>
              r'.machines[k] == if k == ref.key then r.machines[k].(master := flag) else r.machines[k]
    ensures SameButFlags(r, r')
  {
    match ref
    case Self => r.(local := r.local.(master := flag))
    case Remote(k) =>
      if k in r.machines then r.(machines := r.machines[k := r.machines[k].(master := flag)]) else r
  }

  /** Only the current master carries the `master` flag. */
  predicate FlagsFollowMaster(r: Registry) {
    && (r.local.master ==> r.master.Some? && r.master.value.ref == Self)
    && (forall k :: k in r.machines && r.machines[k].master ==> r.master.Some? && r.master.value.ref == Remote(k))
  }

  /** The two registries differ at most in the machines' `master` flags and the `master` field. */
  predicate SameButFlags(r: Registry, r': Registry) {
    && r'.local.(master := r.local.master) == r.local
    && r'.machines.Keys == r.machines.Keys
    && (forall k :: k in r.machines ==> r'.machines[k].(master := r.machines[k].master) == r.machines[k])
  }

  /** The outcome of `assignMaster`: the registry after, and the emitted
      'assign_master' event `(master.id, isMaster)`. */
  datatype Election = Election(registry: Registry, masterId: string, isMaster: bool)

  /** No machine carries the `master` flag. */
  predicate NoFlags(r: Registry) {
    !r.local.master && forall k :: k in r.machines ==> !r.machines[k].master
  }

  lemma SameButFlagsTransitive(r: Registry, r': Registry, r'': Registry)
    requires SameButFlags(r, r') && SameButFlags(r', r'')
    ensures SameButFlags(r, r'')
  {
    forall k | k in r.machines
      ensures r''.machines[k].(master := r.machines[k].master) == r.machines[k]
    {
      assert r'.machines[k].(master := r.machines[k].master) == r.machines[k];
      assert r''.machines[k].(master := r'.machines[k].master) == r'.machines[k];
    }
  }

  /** Clears the flag of the previous master, if there is one. */
  function Uncrown(r: Registry): (r': Registry)
    ensures SameButFlags(r, r') && r'.master == r.master
    ensures FlagsFollowMaster(r) ==> NoFlags(r')
  {
    if r.master.Some? then SetFlag(r, r.master.value.ref, false) else r
  }

  /** Moves the flag from the previous master to `ref` and records `ref` as master. */
  function Crown(r: Registry, ref: Ref): (e: Election)
    requires ref.Remote? ==> ref.key in r.machines
    ensures e.masterId == RefId(r, ref) && e.isMaster == (e.masterId == r.local.id)
    ensures e.registry.master == Some(Master(ref, e.masterId))
    ensures SameButFlags(r, e.registry)
    ensures ref == Self ==> e.registry.local.master
    ensures ref.Remote? ==> e.registry.machines[ref.key].master
    ensures FlagsFollowMaster(r) ==> FlagsFollowMaster(e.registry)
  {
    var cleared := Uncrown(r);
    var crowned := SetFlag(cleared, ref, true);
    SameButFlagsTransitive(r, cleared, crowned);
    var id := RefId(r, ref);
    Election(crowned.(master := Some(Master(ref, id))), id, id == r.local.id)
  }

  /** `assignMaster(newMasterId)`. A forced (non-empty) id must name a tracked
      machine, which becomes master. Otherwise the master is the smallest id
      among the local machine and the eligible tracked machines, so an unforced
      election always succeeds. The previous master loses its flag and the new
      one gets it; `isMaster` says whether the local machine won. */
  function AssignMaster(r: Registry, forced: string): (res: Result<Election>)
    ensures forced == "" ==> res.Ok?
    ensures forced != "" ==> (res.Ok? <==> forced in r.machines)
    ensures res.Err? ==> res.error == ForcedUnregistered
    ensures res.Ok? && forced != "" ==>
              res.value.registry.master == Some(Master(Remote(forced), r.machines[forced].id))
    ensures res.Ok? && forced == "" && Wf(r) ==> IsLeast(res.value.masterId, Candidates(r))
    ensures res.Ok? ==> res.value.isMaster == (res.value.masterId == r.local.id)
    ensures res.Ok? ==> res.value.registry.master.Some? && res.value.registry.master.value.id == res.value.masterId
    ensures res.Ok? ==> SameButFlags(r, res.value.registry)
    ensures res.Ok? && FlagsFollowMaster(r) ==> FlagsFollowMaster(res.value.registry)
  {
    if forced != "" then
      if forced !in r.machines then Err(ForcedUnregistered)
      else Ok(Crown(r, Remote(forced)))
    else
      var winner := Least(Candidates(r));
      Ok(Crown(r, if winner == r.local.id then Self else Remote(winner)))
  }

  /** Only the flags change, so the same machines stay in the running. */
  lemma SameButFlagsKeepsCandidates(r: Registry, r': Registry)
    requires SameButFlags(r, r')
    ensures Candidates(r') == Candidates(r)
  {
    forall k | k in r.machines
      ensures r'.machines[k].active == r.machines[k].active && M.Open(r'.machines[k]) == M.Open(r.machines[k])
    {
      assert r'.machines[k].(master := r.machines[k].master) == r.machines[k];
    }
    assert r'.local.id == r.local.id;
  }

  /** Election is idempotent: re-running it on the registry it produced selects
      the same master. */
  lemma ElectionIdempotent(r: Registry)
    requires Wf(r)
    ensures var e := AssignMaster(r, "").value;
            AssignMaster(e.registry, "").value.masterId == e.masterId
  {
    var e := AssignMaster(r, "").value;
    SameButFlagsKeepsCandidates(r, e.registry);
    var winner := Least(Candidates(r));
    assert e.masterId == winner;
    assert e.registry.local.id == r.local.id;
  }

  // ---------------------------------------------------------------- reconciliation

  /** What one tracked machine's `get_master` request came back with: its
      master id, a reply without data, or a rejection (disconnected, timed out). */
  datatype Answer = Answered(master: string) | NoDataReply | Failed(error: string)

  /** The fold of `getRemoteMaster` over the answers, in iteration order, with
      the agreed machine so far. */
  function Agree(ms: map<string, M.Machine>, answers: seq<Answer>, acc: Option<string>): (res: Result<Option<string>>)
    requires acc.Some? ==> acc.value in ms
    ensures res.Ok? && res.value.Some? ==> res.value.value in ms
    decreases |answers|
  {
    if answers == [] then Ok(acc)
    else
      match answers[0]
      case Failed(e) => Err(e)
      case NoDataReply => Err(NoData)
      case Answered(x) =>
        if x !in ms then Agree(ms, answers[1..], acc)
        else if acc.Some? && ms[x].id != ms[acc.value].id then Err(Mismatch)
        else Agree(ms, answers[1..], Some(x))
  }

  /** `getRemoteMaster()`: with no tracked machine there is no remote master.
      Otherwise each tracked machine is asked for its master: ids not tracked
      here are skipped, two different tracked ids are a fatal mismatch, and the
      agreed machine (or none, if every answer was skipped) is returned. Any
      failed request aborts the whole query. */
  function GetRemoteMaster(r: Registry, answers: seq<Answer>): (res: Result<Option<string>>)
    ensures r.machines == map[] ==> res == Ok(None)
    ensures res.Ok? && res.value.Some? ==> res.value.value in r.machines
  {
    if |r.machines| == 0 then Ok(None) else Agree(r.machines, answers, None)
  }

  /** The tracked ids named among the answers. */
  function Recognized(ms: map<string, M.Machine>, answers: seq<Answer>): set<string>
    decreases |answers|
  {
    if answers == [] then {}
    else
      (if answers[0].Answered? && answers[0].master in ms then {answers[0].master} else {})
      + Recognized(ms, answers[1..])
  }

  /** Every request was answered with data. */
  predicate AllAnswered(answers: seq<Answer>) {
    forall i :: 0 <= i < |answers| ==> answers[i].Answered?
  }

  /** The fold decides exactly by the set of tracked ids named so far: none
      gives no master, a single one gives that machine, two distinct ones give
      the mismatch error. */
  lemma {:induction false} AgreeDecides(ms: map<string, M.Machine>, answers: seq<Answer>, acc: Option<string>)
    requires forall k :: k in ms ==> ms[k].id == k
    requires acc.Some? ==> acc.value in ms
    requires AllAnswered(answers)
    ensures var seen := Recognized(ms, answers) + (if acc.Some? then {acc.value} else {});
            var res := Agree(ms, answers, acc);
            && (res == Ok(None) <==> seen == {})
            && (forall x :: res == Ok(Some(x)) <==> seen == {x})
            && (res.Err? <==> exists x, y :: x in seen && y in seen && x != y)
            && (res.Err? ==> res.error == Mismatch)
    decreases |answers|
  {
    var seen := Recognized(ms, answers) + (if acc.Some? then {acc.value} else {});
    if answers != [] {
      var x := answers[0].master;
      var rest := answers[1..];
      assert AllAnswered(rest) by {
        forall i | 0 <= i < |rest| ensures rest[i].Answered? {
          assert rest[i] == answers[i + 1];
        }
      }
      if x !in ms {
        AgreeDecides(ms, rest, acc);
      } else if acc.Some? && x != acc.value {
        assert x in seen && acc.value in seen;
      } else {
        AgreeDecides(ms, rest, Some(x));
        assert seen == Recognized(ms, rest) + {x};
      }
    }
  }

  /** The reconciliation result is characterised by the set of tracked ids the
      peers named: none (or no tracked machine at all) means no remote master,
      exactly one means that machine, and two different ones raise the fatal
      mismatch. */
  lemma GetRemoteMasterDecides(r: Registry, answers: seq<Answer>)
    requires Wf(r)
    requires AllAnswered(answers)
    ensures var seen := Recognized(r.machines, answers);
            var res := GetRemoteMaster(r, answers);
            && (res == Ok(None) <==> seen == {})
            && (forall x :: res == Ok(Some(x)) <==> seen == {x})
            && (res.Err? <==> exists x, y :: x in seen && y in seen && x != y)
            && (res.Err? ==> res.error == Mismatch)
  {
    if |r.machines| == 0 {
      RecognizedUntracked(r.machines, answers);
    } else {
      AgreeDecides(r.machines, answers, None);
    }
  }

  /** Nothing is recognized when nothing is tracked. */
  lemma {:induction false} RecognizedUntracked(ms: map<string, M.Machine>, answers: seq<Answer>)
    requires ms == map[]
    ensures Recognized(ms, answers) == {}
    decreases |answers|
  {
    if answers != [] {
      RecognizedUntracked(ms, answers[1..]);
    }
  }

  /** The start-up decision of src/index.ts: with no agreed remote master the
      process elects locally, otherwise it forces the agreed master. A
      reconciliation error aborts start-up. */
  function Bootstrap(r: Registry, answers: seq<Answer>): (res: Result<Election>)
    ensures GetRemoteMaster(r, answers).Err? ==> res.Err?
    ensures GetRemoteMaster(r, answers) == Ok(None) ==> res == AssignMaster(r, "")
    ensures Wf(r) && GetRemoteMaster(r, answers).Ok? ==> res.Ok?
    ensures Wf(r) && GetRemoteMaster(r, answers).Ok? && GetRemoteMaster(r, answers).value.Some? ==>
              var k := GetRemoteMaster(r, answers).value.value;
              res.value.masterId == k && res.value.registry.master == Some(Master(Remote(k), k))
  {
    match GetRemoteMaster(r, answers)
    case Err(e) => Err(e)
    case Ok(None) => AssignMaster(r, "")
    case Ok(Some(k)) => AssignMaster(r, r.machines[k].id)
  }

  // ---------------------------------------------------------------- master query and close

  /** What the 'cluster_master_get' listener reports: the master's id, if any. */
  function CurrentMaster(r: Registry): (id: Option<string>)
    ensures id.Some? <==> r.master.Some?
    ensures id.Some? ==> id.value == r.master.value.id
  {
    if r.master.Some? then Some(r.master.value.id) else None
  }

  /** A tracked machine's reply to `get_master`: `{master: id}` carrying the
      registry's current master id, or the processing error when none is assigned. */
  function AnswerGetMaster(r: Registry, reqId: nat): (msg: Msg)
    ensures msg.resId == Some(reqId)
    ensures Wf(r) && r.master.Some? && r.master.value.id != "" ==>
              msg.data == Obj(map["master" := r.master.value.id]) && msg.error == ""
    ensures r.master.None? ==> msg.error == M.ProcessingFailed
  {
    CM.Answer(reqId, CM.GetMaster, CurrentMaster(r))
  }

  /** The 'close' listener: when the machine that closed is the current master
      (compared by id), the master is re-elected; otherwise nothing changes. */
  function OnMachineClose(r: Registry, id: string): (r': Registry)
    ensures !(r.master.Some? && r.master.value.id == id) ==> r' == r
    ensures r.master.Some? && r.master.value.id == id && Wf(r) ==>
              r'.master.Some? && IsLeast(r'.master.value.id, Candidates(r))
  {
    if r.master.Some? && r.master.value.id == id then AssignMaster(r, "").value.registry else r
  }

  /** The connection of the tracked machine `key` drops: the machine loses its
      client and, if it emitted 'close', the registry reacts. */
  function ConnectionLost(r: Registry, key: string): (r': Registry)
    requires key in r.machines
    ensures r'.machines.Keys == r.machines.Keys
    ensures r.machines[key].channel.None? ==> r' == r
  {
    var lost := M.OnClose(r.machines[key]);
    var r1 := r.(machines := r.machines[key := lost.machine]);
    if lost.emitted then OnMachineClose(r1, lost.machine.id) else r1
  }

  /** When the remote master's connection drops, one election pass picks a
      different master from the machines still active and open. */
  lemma MasterLossReelects(r: Registry, key: string)
    requires Wf(r)
    requires key in r.machines && r.machines[key].channel.Some? && !M.Local(r.machines[key])
    requires r.master.Some? && r.master.value.id == key
    requires key != r.local.id
    ensures var r' := ConnectionLost(r, key);
            && r'.master.Some? && r'.master.value.id != key
            && IsLeast(r'.master.value.id, Candidates(r'))
  {
    var lost := M.OnClose(r.machines[key]);
    var r1 := r.(machines := r.machines[key := lost.machine]);
    assert Wf(r1);
    assert key !in Eligible(r1);
    var r' := ConnectionLost(r, key);
    assert r' == AssignMaster(r1, "").value.registry;
    SameButFlagsKeepsCandidates(r1, r');
  }

  /** Three peers "a", "b", "c" that all see each other open elect "a". */
  lemma ThreePeersElectLowest(r: Registry)
    requires Wf(r) && r.local.id == "b"
    requires r.machines.Keys == {"a", "c"}
    requires forall k :: k in r.machines ==> r.machines[k].active && M.Open(r.machines[k])
    ensures AssignMaster(r, "").value.masterId == "a"
    ensures !AssignMaster(r, "").value.isMaster
  {
    assert Candidates(r) == {"a", "b", "c"};
    assert IsLeast("a", Candidates(r));
    LeastUnique(Candidates(r));
  }
}

=== FILE: cluster_machine.dfy ===
/** The cluster peer of src/machine/cluster_machine.ts: a machine of type
    'cluster' with a `master` flag, answering the one request `get_master`. */
module ClusterMachine {
  import opened Wrappers
  import opened Wire
  import M = Machine

  const GetMaster: string := "get_master"
  const MasterMissing: string := "master ID must be present"

  /** `new ClusterMachine(host)`: type 'cluster', not master, active exactly when local. */
  function New(home: string, clusterId: string, host: string): (m: M.Machine)
    ensures m.kind == M.ClusterKind && M.TypeName(m.kind) == "cluster"
    ensures !m.master
    ensures m.active <==> M.Local(m)
    ensures M.Local(m) ==> m.id == clusterId
  {
    M.NewMachine(M.ClusterKind, home, clusterId, host)
  }

  /** `onRequest(method)`. `get_master` asks the registry for its current master
      id (`currentMaster`, undefined when none is assigned or the registry no
      longer listens) and answers `{master: id}`, failing its assertion when
      there is no id. Every other method yields undefined. */
  function OnRequest(call: string, currentMaster: Option<string>): (r: M.Handled)
    ensures call == GetMaster && currentMaster.Some? && currentMaster.value != "" ==>
              r == M.Returned(Obj(map["master" := currentMaster.value]))
    ensures call == GetMaster && (currentMaster.None? || currentMaster.value == "") ==>
              r == M.Threw(MasterMissing)
    ensures call != GetMaster ==> r == M.Returned(Undefined)
  {
    if call == GetMaster then
      match currentMaster
      case Some(id) =>
        if id != "" then M.Returned(Obj(map["master" := id])) else M.Threw(MasterMissing)
      case None => M.Threw(MasterMissing)
    else
      M.Returned(Undefined)
  }

  /** The reply a cluster machine sends to the request `{req_id, method}`:
      `get_master` with a master assigned is answered `{res_id, data: {master}}`;
      without one the handler's assertion fails and the "failed to process
      message" error goes back; any other method draws the "unrecognized method"
      error. The reply always carries the request's id. */
  function Answer(reqId: nat, call: string, currentMaster: Option<string>): (r: Msg)
    ensures r.resId == Some(reqId)
    ensures call == GetMaster && currentMaster.Some? && currentMaster.value != "" ==>
              r.data == Obj(map["master" := currentMaster.value]) && r.error == ""
    ensures call == GetMaster && (currentMaster.None? || currentMaster.value == "") ==>
              r.data == Undefined && r.error == M.ProcessingFailed
    ensures call != GetMaster ==> r.data == Undefined && r.error == M.Unrecognized
  {
    M.Reply(reqId, OnRequest(call, currentMaster))
  }
}

=== FILE: config.dfy ===
/** The process configuration of src/config.ts: two sections of settings,
    merged in section by section and then checked for the required fields. A
    setting the YAML document leaves out, or sets to null, is `None`; strings
    and the port are checked for truthiness, the machine list only for presence. */
module Config {
  import opened Wrappers

  const MissingServer: string := "missing server config"
  const MissingBindAddress: string := "missing server.bind_address config"
  const MissingBindPort: string := "missing server.bind_port config"
  const MissingRemoteAddress: string := "missing server.remote_address config"
  const MissingCluster: string := "missing cluster config"
  const MissingSecret: string := "missing cluster.secret config"
  const MissingId: string := "missing cluster.id config"
  const MissingMachines: string := "missing cluster.machine config"

  datatype ServerConfig = ServerConfig(bindAddress: Option<string>, bindPort: Option<int>, remoteAddress: Option<string>)

  datatype ClusterConfig = ClusterConfig(secret: Option<string>, id: Option<string>, machines: Option<seq<string>>)

  datatype Config = Config(server: Option<ServerConfig>, cluster: Option<ClusterConfig>)

  /** The configuration before anything is loaded: the empty object. */
  const Unset: Config := Config(None, None)

  /** A string setting that is present and non-empty. */
  predicate Given(s: Option<string>) {
    s.Some? && s.value != ""
  }

  /** The reference notion of a usable configuration: both sections present,
      every string setting non-empty, a non-zero port, and a machine list
      (possibly empty). */
  predicate Complete(c: Config) {
    && c.server.Some? && c.cluster.Some?
    && Given(c.server.value.bindAddress) && Given(c.server.value.remoteAddress)
    && c.server.value.bindPort.Some? && c.server.value.bindPort.value != 0
    && Given(c.cluster.value.secret) && Given(c.cluster.value.id)
    && c.cluster.value.machines.Some?
  }

  /** `validate()`: the checks run in the order server, bind address, port,
      remote address, cluster, secret, id, machine list, and the first that
      fails raises its message. */
  function Validate(c: Config): (res: Result<()>)
    ensures res.Ok? <==> Complete(c)
    ensures c.server.None? ==> res == Err(MissingServer)
    ensures c.server.Some? && !Given(c.server.value.bindAddress) ==> res == Err(MissingBindAddress)
    ensures (c.server.Some? && Given(c.server.value.bindAddress)
             && c.server.value.bindPort in {None, Some(0)}) ==> res == Err(MissingBindPort)
    ensures (c.server.Some? && Given(c.server.value.bindAddress) && c.server.value.bindPort.Some?
             && c.server.value.bindPort.value != 0 && !Given(c.server.value.remoteAddress)) ==> res == Err(MissingRemoteAddress)
    ensures (c.server.Some? && Given(c.server.value.bindAddress) && c.server.value.bindPort.Some?
             && c.server.value.bindPort.value != 0 && Given(c.server.value.remoteAddress)) ==>
              && (c.cluster.None? ==> res == Err(MissingCluster))
              && (c.cluster.Some? && !Given(c.cluster.value.secret) ==> res == Err(MissingSecret))
              && (c.cluster.Some? && Given(c.cluster.value.secret) && !Given(c.cluster.value.id) ==> res == Err(MissingId))
              && ((c.cluster.Some? && Given(c.cluster.value.secret) && Given(c.cluster.value.id)
                   && c.cluster.value.machines.None?) ==> res == Err(MissingMachines))
  {
    if c.server.None? then Err(MissingServer)
    else if !Given(c.server.value.bindAddress) then Err(MissingBindAddress)
    else if c.server.value.bindPort.None? || c.server.value.bindPort.value == 0 then Err(MissingBindPort)
    else if !Given(c.server.value.remoteAddress) then Err(MissingRemoteAddress)
    else if c.cluster.None? then Err(MissingCluster)
    else if !Given(c.cluster.value.secret) then Err(MissingSecret)
    else if !Given(c.cluster.value.id) then Err(MissingId)
    else if c.cluster.value.machines.None? then Err(MissingMachines)
    else Ok(())
  }

  /** The argument of `setConfig`: for each section, whether the object names it
      at all (outer `Option`) and, if so, its value (inner `Option`, `None` for null). */
  datatype Patch = Patch(server: Option<Option<ServerConfig>>, cluster: Option<Option<ClusterConfig>>)

  /** The configuration after `setConfig`, and the validation outcome. */
  datatype Applied = Applied(config: Config, outcome: Result<()>)

  /** `setConfig(conf)`: each section the argument names replaces the current
      one wholesale (a shallow merge, so settings of a replaced section do not
      survive); the other section is kept. The merged configuration is then
      validated; it stays in place even when validation fails. */
  function SetConfig(current: Config, conf: Patch): (a: Applied)
    ensures a.config.server == (if conf.server.Some? then conf.server.value else current.server)
    ensures a.config.cluster == (if conf.cluster.Some? then conf.cluster.value else current.cluster)
    ensures a.outcome.Ok? <==> Complete(a.config)
  {
    var merged := Config(
      if conf.server.Some? then conf.server.value else current.server,
      if conf.cluster.Some? then conf.cluster.value else current.cluster);
    Applied(merged, Validate(merged))
  }

  /** Setting the same configuration twice is the same as setting it once. */
  lemma SetConfigIdempotent(current: Config, conf: Patch)
    ensures SetConfig(SetConfig(current, conf).config, conf) == SetConfig(current, conf)
  {
  }

  /** A configuration naming both sections does not depend on what was loaded before. */
  lemma FullPatchOverrides(current: Config, current': Config, conf: Patch)
    requires conf.server.Some? && conf.cluster.Some?
    ensures SetConfig(current, conf) == SetConfig(current', conf)
  {
  }

  /** A port of 0 is falsy and therefore rejected, however complete the rest is. */
  lemma PortZeroRejected(c: Config)
    requires c.server.Some? && c.server.value.bindPort == Some(0)
    ensures Validate(c).Err?
    ensures Given(c.server.value.bindAddress) ==> Validate(c) == Err(MissingBindPort)
  {
  }

  /** Only the presence of the machine list is checked: an empty list passes
      exactly as a non-empty one does, so a process may start a cluster of its own. */
  lemma MachineListContentsIgnored(c: Config, ms: seq<string>)
    requires c.cluster.Some?
    ensures var withList := c.(cluster := Some(c.cluster.value.(machines := Some(ms))));
            var withEmpty := c.(cluster := Some(c.cluster.value.(machines := Some([]))));
            Validate(withList) == Validate(withEmpty)
  {
  }
}

=== FILE: driver_manager.dfy ===
/** The driver registry of src/driver_manager.ts: the drivers keyed by id, and
    an edge-triggered detector that tells every driver when this process gains
    or loses the cluster master role. Drivers are machines of type 'driver';
    the 'trigger' request they are sent is recorded as the value it carries. */
module DriverManager {
  import opened Wrappers
  import M = Machine

  const MustBeOpen: string := "driver must be open"
  const MustHaveId: string := "driver must be initialized"

  /** A registered driver. `serial` tells driver objects apart: it is the number
      of the registration that stored this object, so an object that was
      replaced under its id can still be recognised when it closes. */
  datatype Entry = Entry(driver: M.Machine, serial: nat)

  /** One `DriverManager`: the drivers by id, the last master role it was told
      about, and the serial the next registration gets. */
  datatype Manager = Manager(drivers: map<string, Entry>, isMaster: bool, next: nat)

  /** Every stored serial was handed out by an earlier registration. */
  predicate Wf(dm: Manager) {
    forall k :: k in dm.drivers ==> dm.drivers[k].serial < dm.next
  }

  /** The constructor: no drivers, not master. */
  function NewManager(): (dm: Manager)
    ensures dm.drivers == map[] && !dm.isMaster && Wf(dm)
  {
    Manager(map[], false, 0)
  }

  // ---------------------------------------------------------------- master changes

  /** The ids of the registered drivers that are open. */
  function OpenIds(dm: Manager): set<string> {
    set k | k in dm.drivers && M.Open(dm.drivers[k].driver)
  }

  /** The manager after an 'assign_master' event, and, by driver id, the value
      carried by each 'trigger' request that was actually sent. */
  datatype Notified = Notified(manager: Manager, triggered: map<string, bool>)

  /** The 'assign_master' listener. The role is recorded in every case; only
      when it changed is every driver triggered with the new role. `send`
      throws "disconnected" on a driver that is not open before anything is
      written, so only the open drivers are sent the request; `rejected` holds
      the ids of open drivers whose request rejects afterwards (a write error
      or the timeout). A driver whose trigger failed either way is stopped (it
      stays registered: stopping drops its own 'close' listener). */
  function OnAssignMaster(dm: Manager, isMaster: bool, rejected: set<string>): (n: Notified)
    ensures n.manager.isMaster == isMaster && n.manager.next == dm.next
    ensures n.triggered.Keys == if dm.isMaster != isMaster then OpenIds(dm) else {}
    ensures forall k :: k in n.triggered ==> n.triggered[k] == isMaster
    ensures n.manager.drivers.Keys == dm.drivers.Keys
    ensures forall k :: k in dm.drivers ==>
              n.manager.drivers[k] ==
                if dm.isMaster != isMaster && (!M.Open(dm.drivers[k].driver) || k in rejected)
                then dm.drivers[k].(driver := M.Stop(dm.drivers[k].driver).machine)
                else dm.drivers[k]
    ensures OpenIds(n.manager) ==
              if dm.isMaster != isMaster
              then OpenIds(dm) - (set k | k in rejected && k in dm.drivers && !M.Local(dm.drivers[k].driver))
              else OpenIds(dm)
    ensures Wf(dm) ==> Wf(n.manager)
  {
    var changed := (dm.isMaster && !isMaster) || (!dm.isMaster && isMaster);
    if !changed then Notified(dm.(isMaster := isMaster), map[])
    else
      var drivers := map k | k in dm.drivers ::
        var d := dm.drivers[k].driver;
        if !M.Open(d) || k in rejected then dm.drivers[k].(driver := M.Stop(d).machine) else dm.drivers[k];
      Notified(Manager(drivers, isMaster, dm.next), map k | k in OpenIds(dm) :: isMaster)
  }

  /** Telling the manager the role it already holds triggers nothing. */
  lemma RepeatIsSilent(dm: Manager, isMaster: bool, rejected: set<string>, rejected': set<string>)
    ensures var n := OnAssignMaster(dm, isMaster, rejected);
            OnAssignMaster(n.manager, isMaster, rejected').triggered == map[]
            && OnAssignMaster(n.manager, isMaster, rejected').manager == n.manager
  {
  }

  /** Feeds a run of 'assign_master' events in which every request that is
      sent succeeds, and records the 'trigger' requests each event sent. */
  function Fired(dm: Manager, roles: seq<bool>): (fired: seq<map<string, bool>>)
    ensures |fired| == |roles|
    decreases |roles|
  {
    if roles == [] then []
    else
      var n := OnAssignMaster(dm, roles[0], {});
      [n.triggered] + Fired(n.manager, roles[1..])
  }

  /** The detector is edge-triggered: over any run of events in which no sent
      request fails, every open driver is sent the new role exactly at the
      events whose role differs from the one before (the first event is
      compared with the role the manager held), and nothing is sent at the
      other events. The drivers that were not open are stopped at the first
      change and are never sent anything. */
  lemma {:induction false} FiredExactlyOnChange(dm: Manager, roles: seq<bool>)
    ensures forall i :: 0 <= i < |roles| ==>
              && Fired(dm, roles)[i].Keys ==
                   (if roles[i] != (if i == 0 then dm.isMaster else roles[i - 1]) then OpenIds(dm) else {})
              && (forall k :: k in Fired(dm, roles)[i] ==> Fired(dm, roles)[i][k] == roles[i])
    decreases |roles|
  {
    if roles != [] {
      var n := OnAssignMaster(dm, roles[0], {});
      FiredExactlyOnChange(n.manager, roles[1..]);
      var fired, rest := Fired(dm, roles), Fired(n.manager, roles[1..]);
      assert OpenIds(n.manager) == OpenIds(dm);
      forall i | 0 <= i < |roles|
        ensures fired[i].Keys ==
                  (if roles[i] != (if i == 0 then dm.isMaster else roles[i - 1]) then OpenIds(dm) else {})
        ensures forall k :: k in fired[i] ==> fired[i][k] == roles[i]
      {
        if i > 0 {
          assert fired[i] == rest[i - 1];
          assert roles[1..][i - 1] == roles[i];
          if i > 1 {
            assert roles[1..][i - 2] == roles[i - 1];
          }
        }
      }
    }
  }

  // ---------------------------------------------------------------- registration

  /** The manager after `register`, and the role the new driver's immediate
      'trigger' request carries. */
  datatype Registered = Registered(manager: Manager, trigger: bool)

  /** `register(driver)`: the driver must be open and have an id. It is stored
      under its id, replacing any previous driver there (which is neither
      stopped nor told), and is immediately triggered with the current role.
      That request is not awaited: whether it succeeds changes nothing here. */
  function Register(dm: Manager, d: M.Machine): (res: Result<Registered>)
    ensures res.Err? <==> !M.Open(d) || d.id == ""
    ensures res.Err? ==> res.error == (if !M.Open(d) then MustBeOpen else MustHaveId)
    ensures res.Ok? ==>
              && res.value.manager.drivers == dm.drivers[d.id := Entry(d, dm.next)]
              && res.value.manager.isMaster == dm.isMaster
              && res.value.manager.next == dm.next + 1
              && res.value.trigger == dm.isMaster
    ensures res.Ok? && Wf(dm) ==> Wf(res.value.manager)
  {
    if !M.Open(d) then Err(MustBeOpen)
    else if d.id == "" then Err(MustHaveId)
    else Ok(Registered(Manager(dm.drivers[d.id := Entry(d, dm.next)], dm.isMaster, dm.next + 1), dm.isMaster))
  }

  /** The manager after a driver's 'close' listener ran, and that driver, stopped. */
  datatype Closed = Closed(manager: Manager, stopped: M.Machine)

  /** The 'close' listener as written: it stops the driver that closed and
      deletes whatever is stored under that driver's id, even when a later
      registration has replaced the driver there. */
  function OnDriverCloseAsWritten(dm: Manager, d: M.Machine, serial: nat): (c: Closed)
    ensures c.manager.drivers == dm.drivers - {d.id}
    ensures c.stopped == M.Stop(d).machine
    ensures c.manager.isMaster == dm.isMaster && c.manager.next == dm.next
  {
    Closed(dm.(drivers := dm.drivers - {d.id}), M.Stop(d).machine)
  }

  /** The 'close' listener as intended: the driver that closed is stopped and
      removed only if it is still the one stored under its id. */
  function OnDriverClose(dm: Manager, d: M.Machine, serial: nat): (c: Closed)
    ensures d.id in dm.drivers && dm.drivers[d.id].serial == serial ==>
              c.manager.drivers == dm.drivers - {d.id}
    ensures !(d.id in dm.drivers && dm.drivers[d.id].serial == serial) ==>
              c.manager.drivers == dm.drivers
    ensures forall k :: k != d.id ==>
              (k in c.manager.drivers <==> k in dm.drivers)
              && (k in dm.drivers ==> c.manager.drivers[k] == dm.drivers[k])
    ensures c.stopped == M.Stop(d).machine
    ensures c.manager.isMaster == dm.isMaster && c.manager.next == dm.next
  {
    var current := d.id in dm.drivers && dm.drivers[d.id].serial == serial;
    Closed(dm.(drivers := if current then dm.drivers - {d.id} else dm.drivers), M.Stop(d).machine)
  }

  /** A registered driver that closes is removed again, under either listener,
      and the other drivers stay as they were. */
  lemma RegisterThenClose(dm: Manager, d: M.Machine)
    requires M.Open(d) && d.id != ""
    ensures var r := Register(dm, d).value.manager;
            && OnDriverClose(r, d, dm.next).manager.drivers == dm.drivers - {d.id}
            && OnDriverCloseAsWritten(r, d, dm.next).manager.drivers == dm.drivers - {d.id}
  {
    var r := Register(dm, d).value.manager;
    assert r.drivers - {d.id} == dm.drivers - {d.id};
  }

  /** As written, a driver that was replaced under its id and closes later
      evicts its replacement, which is still open and no longer reachable. */
  lemma ReplacedCloseEvictsReplacement(dm: Manager, a: M.Machine, b: M.Machine)
    requires M.Open(a) && M.Open(b) && a.id != "" && b.id == a.id
    ensures var r1 := Register(dm, a).value.manager;
            var r2 := Register(r1, b).value.manager;
            && a.id in r2.drivers && r2.drivers[a.id].driver == b
            && a.id !in OnDriverCloseAsWritten(r2, a, dm.next).manager.drivers
  {
  }

  /** The intended listener leaves the replacement in place. */
  lemma ReplacedCloseKeepsReplacement(dm: Manager, a: M.Machine, b: M.Machine)
    requires M.Open(a) && M.Open(b) && a.id != "" && b.id == a.id
    ensures var r1 := Register(dm, a).value.manager;
            var r2 := Register(r1, b).value.manager;
            OnDriverClose(r2, a, dm.next).manager.drivers == r2.drivers
  {
  }

  /** Under the intended listener a driver's close can only remove that very
      driver object: whatever is stored under a registry satisfying `Wf` with a
      serial from some registration is kept unless it is the one that closed. */
  lemma CloseRemovesOnlyItself(dm: Manager, d: M.Machine, serial: nat)
    ensures forall k :: k in dm.drivers && dm.drivers[k].serial != serial ==>
              k in OnDriverClose(dm, d, serial).manager.drivers
              && OnDriverClose(dm, d, serial).manager.drivers[k] == dm.drivers[k]
  {
  }
}

=== FILE: handshake.dfy ===
/** Two channels talking to each other: the properties of src/client.ts that
    relate a sender to a receiver. Each lemma states its hypotheses on the opaque
    primitives explicitly (see `Channel.Sound`). */
module Handshake {
  import opened Wrappers
  import opened Bytes
  import opened Wire
  import opened Channel

  /** Two channels whose key derivations agree for the next message from `a` to `b`. */
  predicate InStep(a: Channel, b: Channel) {
    && a.env.secret == b.env.secret
    && a.outgoing == b.incoming
    && a.initialized == b.initialized
    && (a.initialized ==> a.ticket == b.ticket)
  }

  /** A frame encrypted by `a` decrypts at `b` to the very message, provided both
      sides derive the key from the same secret, counter and (once initialized)
      ticket. Both counters advance by one, so they stay in step. */
  lemma RoundTrip(c: Crypto, a: Channel, b: Channel, iv: bytes, m: Msg)
    requires Sound(c)
    requires |iv| == IvLength
    requires InStep(a, b)
    requires KeyMaterial(a.env.secret, a.outgoing + 1, a.initialized, a.ticket).Ok?
    ensures Encrypt(c, a, iv, m).frame.Ok?
    ensures Decrypt(c, b, Encrypt(c, a, iv, m).frame.value) == Incoming(b.(incoming := b.incoming + 1), Ok(m))
    ensures InStep(Encrypt(c, a, iv, m).channel, b.(incoming := b.incoming + 1))
  {
    var a' := a.(outgoing := a.outgoing + 1);
    var b' := b.(incoming := b.incoming + 1);
    var key := DeriveKey(c, a', a'.outgoing).value;
    assert DeriveKey(c, b', b'.incoming) == Ok(key);
    var sealed := c.seal(key, iv, c.stringify(m));
    var f := Frame(iv, sealed.tag, sealed.ciphertext);
    assert Encrypt(c, a, iv, m).frame == Ok(Assemble(f));
    SplitAssemble(f);
  }

  /** A frame is refused when the receiver is out of step with the sender (its
      key material differs in secret, counter, initialization or ticket) and
      the digest separates the two materials: decryption never yields a
      message, the receiver's socket is closed and the "verify the cluster
      secret" error is raised. This covers desynchronised counters and the
      mid-handshake case where only one side is initialized. */
  lemma MismatchRejected(c: Crypto, a: Channel, b: Channel, iv: bytes, m: Msg)
    requires Sound(c) && Authentic(c)
    requires |iv| == IvLength
    requires KeyMaterial(a.env.secret, a.outgoing + 1, a.initialized, a.ticket).Ok?
    requires KeyMaterial(b.env.secret, b.incoming + 1, b.initialized, b.ticket).Ok?
    requires !InStep(a, b)
    requires a.initialized != b.initialized ==> |a.env.secret| == |b.env.secret|
    requires Separates(c, KeyMaterial(a.env.secret, a.outgoing + 1, a.initialized, a.ticket).value,
                          KeyMaterial(b.env.secret, b.incoming + 1, b.initialized, b.ticket).value)
    ensures Encrypt(c, a, iv, m).frame.Ok?
    ensures Decrypt(c, b, Encrypt(c, a, iv, m).frame.value)
         == Incoming(Close(b.(incoming := b.incoming + 1)), Err(DecryptionFailure))
  {
    var a' := a.(outgoing := a.outgoing + 1);
    var b' := b.(incoming := b.incoming + 1);
    var ma := KeyMaterial(a.env.secret, a'.outgoing, a.initialized, a.ticket).value;
    var mb := KeyMaterial(b.env.secret, b'.incoming, b.initialized, b.ticket).value;
    KeyMaterialDistinct(a.env.secret, a'.outgoing, a.initialized, a.ticket,
                        b.env.secret, b'.incoming, b.initialized, b.ticket);
    var ka, kb := Truncate(c.digest(ma)), Truncate(c.digest(mb));
    assert ka != kb;
    var sealed := c.seal(ka, iv, c.stringify(m));
    var f := Frame(iv, sealed.tag, sealed.ciphertext);
    SplitAssemble(f);
    assert c.open(kb, iv, sealed.tag, sealed.ciphertext) == None;
  }

  // ---------------------------------------------------------------- runs of messages

  /** The channel after a run of `encryptMsg` calls, and what each call produced. */
  datatype Sent = Sent(channel: Channel, frames: seq<Result<bytes>>)

  /** The channel `n` outgoing counters further on. */
  function Advance(ch: Channel, n: nat): (r: Channel)
    ensures r.outgoing == ch.outgoing + n
  {
    ch.(outgoing := ch.outgoing + n)
  }

  /** `encryptMsg` on each message in turn, each call on the channel the previous
      call left behind. */
  function EncryptRun(c: Crypto, ch: Channel, ivs: seq<bytes>, ms: seq<Msg>): (r: Sent)
    requires |ivs| == |ms|
    requires forall i :: 0 <= i < |ivs| ==> |ivs[i]| == IvLength
    ensures r.channel == Advance(ch, |ms|)
    ensures |r.frames| == |ms|
    decreases |ms|
  {
    if ms == [] then Sent(ch, [])
    else
      var first := Encrypt(c, ch, ivs[0], ms[0]);
      var rest := EncryptRun(c, first.channel, ivs[1..], ms[1..]);
      Sent(rest.channel, [first.frame] + rest.frames)
  }

  /** The frames that reached the socket: an `encryptMsg` that threw wrote nothing. */
  function Written(frames: seq<Result<bytes>>): (w: seq<bytes>)
    ensures |w| <= |frames|
    ensures (forall i :: 0 <= i < |frames| ==> frames[i].Ok?) ==>
              |w| == |frames| && forall i :: 0 <= i < |w| ==> w[i] == frames[i].value
  {
    if frames == [] then []
    else (if frames[0].Ok? then [frames[0].value] else []) + Written(frames[1..])
  }

  /** The channel after a run of `decryptMsg` calls, and what each call produced. */
  datatype Read = Read(channel: Channel, msgs: seq<Result<Msg>>)

  /** `decryptMsg` on each frame in the order the socket delivers them. */
  function DecryptRun(c: Crypto, ch: Channel, bufs: seq<bytes>): (r: Read)
    ensures r.channel.incoming == ch.incoming + |bufs|
    ensures |r.msgs| == |bufs|
    decreases |bufs|
  {
    if bufs == [] then Read(ch, [])
    else
      var first := Decrypt(c, ch, bufs[0]);
      var rest := DecryptRun(c, first.channel, bufs[1..]);
      Read(rest.channel, [first.msg] + rest.msgs)
  }

  /** A non-empty run is its first call followed by the run on the channel
      one counter further. */
  lemma EncryptRunCons(c: Crypto, ch: Channel, ivs: seq<bytes>, ms: seq<Msg>)
    requires |ivs| == |ms| && ms != []
    requires forall j :: 0 <= j < |ivs| ==> |ivs[j]| == IvLength
    ensures EncryptRun(c, ch, ivs, ms).frames
         == [Encrypt(c, ch, ivs[0], ms[0]).frame] + EncryptRun(c, Advance(ch, 1), ivs[1..], ms[1..]).frames
  {
  }

  /** The i-th result of a run is `encryptMsg` on the channel the first i calls
      left behind. */
  lemma {:induction false} EncryptRunAt(c: Crypto, ch: Channel, ivs: seq<bytes>, ms: seq<Msg>, i: nat)
    requires |ivs| == |ms|
    requires forall j :: 0 <= j < |ivs| ==> |ivs[j]| == IvLength
    requires i < |ms|
    ensures EncryptRun(c, ch, ivs, ms).frames[i] == Encrypt(c, Advance(ch, i), ivs[i], ms[i]).frame
    decreases i
  {
    EncryptRunCons(c, ch, ivs, ms);
    if i == 0 {
      assert Advance(ch, 0) == ch;
    } else {
      var next := Advance(ch, 1);
      EncryptRunAt(c, next, ivs[1..], ms[1..], i - 1);
      assert Advance(next, i - 1) == Advance(ch, i);
      assert ivs[1..][i - 1] == ivs[i] && ms[1..][i - 1] == ms[i];
    }
  }

  /** The i-th message of a run is sealed under counter `outgoing + i + 1`:
      each call consumes the next counter, so no key material is used twice on
      one channel. */
  lemma EncryptRunCounters(c: Crypto, ch: Channel, ivs: seq<bytes>, ms: seq<Msg>)
    requires |ivs| == |ms|
    requires forall i :: 0 <= i < |ivs| ==> |ivs[i]| == IvLength
    ensures forall i :: 0 <= i < |ms| ==>
              EncryptRun(c, ch, ivs, ms).frames[i] == Encrypt(c, Advance(ch, i), ivs[i], ms[i]).frame
  {
    forall i | 0 <= i < |ms|
      ensures EncryptRun(c, ch, ivs, ms).frames[i] == Encrypt(c, Advance(ch, i), ivs[i], ms[i]).frame
    {
      EncryptRunAt(c, ch, ivs, ms, i);
    }
  }

  /** A written frame in front of a run is written first. */
  lemma WrittenCons(f: bytes, rest: seq<Result<bytes>>)
    ensures Written([Ok(f)] + rest) == [f] + Written(rest)
  {
    assert ([Ok(f)] + rest)[1..] == rest;
  }

  /** Reading a frame in front of a run reads it first, then the run on the
      channel that read left behind. */
  lemma DecryptRunCons(c: Crypto, b: Channel, f: bytes, rest: seq<bytes>)
    ensures var first := Decrypt(c, b, f);
            var tail := DecryptRun(c, first.channel, rest);
            DecryptRun(c, b, [f] + rest) == Read(tail.channel, [first.msg] + tail.msgs)
  {
    assert ([f] + rest)[1..] == rest;
  }

  /** Every call of a run produces a frame while the counters stay within 32
      bits (and the ticket, once initialized, does too). */
  lemma EncryptRunOk(c: Crypto, a: Channel, ivs: seq<bytes>, ms: seq<Msg>)
    requires |ivs| == |ms|
    requires forall i :: 0 <= i < |ivs| ==> |ivs[i]| == IvLength
    requires a.outgoing + |ms| < Two32 && (a.initialized ==> a.ticket < Two32)
    ensures forall i :: 0 <= i < |ms| ==> EncryptRun(c, a, ivs, ms).frames[i].Ok?
  {
    EncryptRunCounters(c, a, ivs, ms);
    forall i | 0 <= i < |ms|
      ensures EncryptRun(c, a, ivs, ms).frames[i].Ok?
    {
      assert KeyMaterial(a.env.secret, Advance(a, i).outgoing + 1, a.initialized, a.ticket).Ok?;
    }
  }

  /** What a reader gets when every frame decrypts: each message, in order. */
  function Delivered(ms: seq<Msg>): (r: seq<Result<Msg>>)
    ensures |r| == |ms|
    ensures forall i :: 0 <= i < |ms| ==> r[i] == Ok(ms[i])
  {
    if ms == [] then [] else [Ok(ms[0])] + Delivered(ms[1..])
  }

  /** A run of messages sent by `a` is read at `b`, in order, as exactly those
      messages, provided the two start in step and no counter passes 32 bits;
      both end in step again. */
  lemma {:induction false} RunRoundTrip(c: Crypto, a: Channel, b: Channel, ivs: seq<bytes>, ms: seq<Msg>)
    requires Sound(c)
    requires |ivs| == |ms|
    requires forall i :: 0 <= i < |ivs| ==> |ivs[i]| == IvLength
    requires InStep(a, b)
    requires a.outgoing + |ms| < Two32 && (a.initialized ==> a.ticket < Two32)
    ensures DecryptRun(c, b, Written(EncryptRun(c, a, ivs, ms).frames))
         == Read(b.(incoming := b.incoming + |ms|), Delivered(ms))
    ensures InStep(EncryptRun(c, a, ivs, ms).channel, b.(incoming := b.incoming + |ms|))
    decreases |ms|
  {
    if ms != [] {
      RoundTrip(c, a, b, ivs[0], ms[0]);
      var a1, b1 := Advance(a, 1), b.(incoming := b.incoming + 1);
      var f := Encrypt(c, a, ivs[0], ms[0]).frame.value;
      RunRoundTrip(c, a1, b1, ivs[1..], ms[1..]);
      EncryptRunCons(c, a, ivs, ms);
      var rest := EncryptRun(c, a1, ivs[1..], ms[1..]).frames;
      WrittenCons(f, rest);
      DecryptRunCons(c, b, f, Written(rest));
      assert b1.(incoming := b1.incoming + |ms[1..]|) == b.(incoming := b.incoming + |ms|);
    }
  }

  /** The i-th frame of a run is refused by a receiver that is out of step
      with the sender at that message (for instance one whose incoming counter
      is not `outgoing + i`), under the same hypotheses as `MismatchRejected`:
      a frame cannot be replayed, skipped ahead or reordered. */
  lemma RunFrameRefusedOutOfStep(c: Crypto, a: Channel, b: Channel, ivs: seq<bytes>, ms: seq<Msg>, i: nat)
    requires Sound(c) && Authentic(c)
    requires |ivs| == |ms|
    requires forall j :: 0 <= j < |ivs| ==> |ivs[j]| == IvLength
    requires i < |ms|
    requires KeyMaterial(a.env.secret, a.outgoing + i + 1, a.initialized, a.ticket).Ok?
    requires KeyMaterial(b.env.secret, b.incoming + 1, b.initialized, b.ticket).Ok?
    requires !InStep(Advance(a, i), b)
    requires a.initialized != b.initialized ==> |a.env.secret| == |b.env.secret|
    requires Separates(c, KeyMaterial(a.env.secret, a.outgoing + i + 1, a.initialized, a.ticket).value,
                          KeyMaterial(b.env.secret, b.incoming + 1, b.initialized, b.ticket).value)
    ensures EncryptRun(c, a, ivs, ms).frames[i].Ok?
    ensures Decrypt(c, b, EncryptRun(c, a, ivs, ms).frames[i].value)
         == Incoming(Close(b.(incoming := b.incoming + 1)), Err(DecryptionFailure))
  {
    EncryptRunCounters(c, a, ivs, ms);
    MismatchRejected(c, Advance(a, i), b, ivs[i], ms[i]);
  }

  /** What the two sides of one handshake end with once both owners have
      accepted the peer's identity and signalled 'handshake_complete'. */
  datatype Outcome = Outcome(server: Channel, client: Channel, serverSaw: Event, clientSaw: Event)

  /** The handshake run to completion: the accepting side sends its hello with
      ticket `t`; the dialling side receives it and answers with its own hello;
      the accepting side receives that. Each owner then completes its channel.
      `None` if a hello is not written. */
  function RunHandshake(c: Crypto, a: Channel, b: Channel, t: nat, iv1: bytes, iv2: bytes): Option<Outcome>
    requires |iv1| == IvLength && |iv2| == IvLength && t < Two32
  {
    var s1 := Init(c, a, iv1, t);
    if |s1.sent| != 1 then None
    else
      var s2 := Receive(c, b, iv2, s1.sent[0]);
      if |s2.sent| != 1 then None
      else
        var s3 := Receive(c, s1.channel, iv1, s2.sent[0]);
        Some(Outcome(Complete(s3.channel), Complete(s2.channel), s3.event, s2.event))
  }

  /** Two fresh, open channels over one socket: same secret, counters in step in
      both directions (the dialling side has already spent one counter on its
      classification header, which the accepting side has decrypted). */
  predicate ReadyPair(a: Channel, b: Channel) {
    && a.server && !b.server
    && Open(a) && Open(b)
    && !a.initialized && !b.initialized
    && !a.awaitingComplete && !b.awaitingComplete
    && a.env.secret == b.env.secret
    && a.outgoing == b.incoming && b.outgoing == a.incoming
    && a.outgoing + 1 < Two32 && b.outgoing + 1 < Two32
  }

  /** After both hellos both sides hold the accepting side's ticket, both are
      initialized, each side has verified the other's identity, and the counters
      remain in step in both directions, so later traffic round-trips. */
  lemma HandshakeAgreesOnTicket(c: Crypto, a: Channel, b: Channel, t: nat, iv1: bytes, iv2: bytes)
    requires Sound(c)
    requires ReadyPair(a, b)
    requires 0 < t < Two32
    requires |iv1| == IvLength && |iv2| == IvLength
    ensures RunHandshake(c, a, b, t, iv1, iv2).Some?
    ensures var o := RunHandshake(c, a, b, t, iv1, iv2).value;
            && o.server.ticket == t && o.client.ticket == t
            && o.server.initialized && o.client.initialized
            && o.clientSaw == Verify(Hello(t, a.env.id, a.env.address))
            && o.serverSaw == Verify(Hello(t, b.env.id, b.env.address))
            && InStep(o.server, o.client) && InStep(o.client, o.server)
            && Open(o.server) && Open(o.client)
  {
    var a1 := a.(ticket := t);
    var h1 := Hello(t, a.env.id, a.env.address);
    RoundTrip(c, a1, b, iv1, h1);
    var s1 := Init(c, a, iv1, t);
    assert s1.sent == [Encrypt(c, a1, iv1, h1).frame.value];
    var s2 := Receive(c, b, iv2, s1.sent[0]);
    var b2 := b.(incoming := b.incoming + 1, ticket := t);
    var h2 := Hello(t, b.env.id, b.env.address);
    RoundTrip(c, b2, s1.channel, iv2, h2);
    assert s2.sent == [Encrypt(c, b2, iv2, h2).frame.value];
    assert s2.event == Verify(h1);
    var s3 := Receive(c, s1.channel, iv1, s2.sent[0]);
    assert s3.event == Verify(h2);
  }

  /** A second hello is a protocol violation: a hello sent by a peer in step
      with an initialized receiver is decrypted, then closes the receiver
      without being passed up, so the ticket cannot be changed after the
      handshake. */
  lemma HelloAfterHandshakeCloses(c: Crypto, a: Channel, b: Channel, iv1: bytes, iv2: bytes)
    requires Sound(c)
    requires |iv1| == IvLength && |iv2| == IvLength
    requires InStep(a, b) && b.initialized && Open(a)
    requires a.ticket != 0 && KeyMaterial(a.env.secret, a.outgoing + 1, a.initialized, a.ticket).Ok?
    ensures SendHello(c, a, iv1).frame.Ok?
    ensures var r := Receive(c, b, iv2, SendHello(c, a, iv1).frame.value);
            && r == Step(Close(b.(incoming := b.incoming + 1)), [], Silent)
            && !Open(r.channel) && r.channel.ticket == b.ticket
  {
    RoundTrip(c, a, b, iv1, Hello(a.ticket, a.env.id, a.env.address));
  }

  /** A ticket of 0 is falsy, so the accepting side's hello is then classified
      as an ordinary message: the dialling side, not yet initialized, closes the
      channel and the handshake cannot complete. */
  lemma ZeroTicketHelloIsNotHello(c: Crypto, a: Channel, b: Channel, iv1: bytes, iv2: bytes)
    requires Sound(c)
    requires ReadyPair(a, b)
    requires |iv1| == IvLength && |iv2| == IvLength
    ensures |Init(c, a, iv1, 0).sent| == 1
    ensures var s2 := Receive(c, b, iv2, Init(c, a, iv1, 0).sent[0]);
            && s2.event == Deliver(Hello(0, a.env.id, a.env.address))
            && !Open(s2.channel) && !s2.channel.awaitingComplete
  {
    var a1 := a.(ticket := 0);
    RoundTrip(c, a1, b, iv1, Hello(0, a.env.id, a.env.address));
  }
}

=== FILE: machine.dfy ===
/** The generic peer of src/machine/generic_machine.ts: identity, activity,
    the one live channel, the pending-request table with its strictly increasing
    request ids, inbound dispatch, identity binding at the handshake, the pong
    staleness test and the reconnection decision.

    Timers and events become explicit transition functions and time is a `nat`
    parameter in milliseconds. Settling a pending request is reported as a
    `Completion` instead of calling the stored resolve/reject callbacks. */
module Machine {
  import opened Wrappers
  import opened Bytes
  import opened Wire
  import C = Channel
  import H = Handshake

  /** Milliseconds before a pending request rejects with "timed out". */
  const RequestTimeout: nat := 3000
  /** Milliseconds between two pings (`schedulePing`'s default). */
  const PingInterval: nat := 1500
  /** Milliseconds before a re-armed connection attempt (`scheduleConnection`'s default). */
  const ReconnectDelay: nat := 5000

  const Disconnected: string := "disconnected"
  const TimedOut: string := "timed out"
  const Stopped: string := "stopped"
  /** The TypeError of `this.client!.sendMessage` when there is no client. */
  const NoClient: string := "cannot read properties of undefined (reading 'sendMessage')"
  const Unrecognized: string := "unrecognized method for this machine"
  const ProcessingFailed: string := "failed to process message"
  const IdMismatch: string := "id mismatch"
  const LocalOnly: string := "only remote machines can schedule connections"

  /** The two specializations: `type` is 'cluster' or 'driver'. */
  datatype Kind = ClusterKind | DriverKind

  function TypeName(k: Kind): string {
    match k
    case ClusterKind => "cluster"
    case DriverKind => "driver"
  }

  /** One `GenericMachine`. `home` is this process's `server.remote_address`;
      `id` and `host` are "" while unset; `channel` is `client`; `pending` maps
      each outstanding request id to its deadline; `master` is the flag a
      `ClusterMachine` carries. */
  datatype Machine = Machine(
    kind: Kind,
    home: string,
    host: string,
    id: string,
    active: bool,
    channel: Option<C.Channel>,
    reqId: nat,
    pending: map<nat, nat>,
    lastPong: nat,
    master: bool)

  /** `local`: the machine stands for this very process. */
  predicate Local(m: Machine) {
    m.host == m.home
  }

  /** `open`: a local machine is always open; a remote one is open exactly when it
      is active and has a client whose socket is open. */
  predicate Open(m: Machine) {
    Local(m) || (m.active && m.channel.Some? && C.Open(m.channel.value))
  }

  /** Every outstanding request id is below the next id to be handed out. */
  predicate Wf(m: Machine) {
    forall k :: k in m.pending ==> k < m.reqId
  }

  /** The constructor: a machine is active exactly when it is local, and a local
      machine takes the configured cluster id. */
  function NewMachine(kind: Kind, home: string, clusterId: string, host: string): (m: Machine)
    ensures m.active <==> Local(m)
    ensures Open(m) <==> Local(m)
    ensures m.id == (if Local(m) then clusterId else "")
    ensures m.pending == map[] && m.reqId == 0 && m.channel.None? && !m.master
    ensures Wf(m)
  {
    var local := host == home;
    Machine(kind, home, host, if local then clusterId else "", local, None, 0, map[], 0, false)
  }

  /** `start()`: a no-op on a local or already active machine; otherwise the
      machine becomes active (and its ping timer is armed). */
  function Start(m: Machine): (r: Machine)
    ensures Local(m) || m.active ==> r == m
    ensures r.active == (m.active || !Local(m))
    ensures r.(active := m.active) == m
  {
    if m.active || Local(m) then m else m.(active := true)
  }

  /** How a pending request settles. */
  datatype Completion = Resolved(data: Value) | Rejected(error: string)

  /** The machine after a transition and the requests it settled. */
  datatype Settled = Settled(machine: Machine, settled: map<nat, Completion>)

  /** `stop()`: a no-op on a local machine. Otherwise the machine is left
      inactive, without a client, with `lastPong = 0`, and its pending table
      emptied, every entry rejected with "stopped". */
  function Stop(m: Machine): (r: Settled)
    ensures Local(m) ==> r == Settled(m, map[])
    ensures !Local(m) ==>
              && !r.machine.active && r.machine.channel.None?
              && r.machine.lastPong == 0 && r.machine.pending == map[]
              && !Open(r.machine)
              && r.settled.Keys == m.pending.Keys
              && (forall k :: k in r.settled ==> r.settled[k] == Rejected(Stopped))
    ensures r.machine.(active := m.active, channel := m.channel, lastPong := m.lastPong, pending := m.pending) == m
    ensures Wf(m) ==> Wf(r.machine)
  {
    if Local(m) then Settled(m, map[])
    else
      Settled(m.(active := false, channel := None, lastPong := 0, pending := map[]),
              map k | k in m.pending :: Rejected(Stopped))
  }

  /** The outcome of `setClient`: whether the client was taken, and the machine after. */
  datatype Attach = Attach(accepted: bool, machine: Machine)

  /** `setClient(client)`: its assertions fail on a local, inactive, id-less or
      host-less machine; it refuses while the current client is open (one live
      channel per machine) and otherwise takes the new client. */
  function SetClient(m: Machine, ch: C.Channel): (r: Result<Attach>)
    ensures r.Err? <==> Local(m) || !m.active || m.id == "" || m.host == ""
    ensures r.Ok? ==> (r.value.accepted <==> !(m.channel.Some? && C.Open(m.channel.value)))
    ensures r.Ok? && r.value.accepted ==> r.value.machine == m.(channel := Some(ch))
    ensures r.Ok? && !r.value.accepted ==> r.value.machine == m
  {
    if Local(m) then Err("cannot set client on a local machine")
    else if !m.active then Err("machine must be considered active")
    else if m.id == "" then Err("machine missing id")
    else if m.host == "" then Err("machine missing host")
    else if m.channel.Some? && C.Open(m.channel.value) then Ok(Attach(false, m))
    else Ok(Attach(true, m.(channel := Some(ch))))
  }

  // ---------------------------------------------------------------- requests

  /** What `send` did: the id it used, the frame it wrote (if the client
      accepted the request), and the request it settled at once (if it did not). */
  datatype Sent = Sent(machine: Machine, id: nat, frame: Option<bytes>, settled: map<nat, Completion>)

  /** `send(method)`: fails with "disconnected" on a machine that is not open,
      changing nothing. Otherwise it takes the current `reqId`, increments it,
      files a pending entry due `RequestTimeout` later and hands
      `{req_id, method}` to the client; if the client rejects, the entry is
      removed again and the request rejected with the client's error. */
  function Send(c: C.Crypto, m: Machine, iv: bytes, call: string, now: nat): (r: Result<Sent>)
    requires |iv| == C.IvLength
    ensures r.Err? <==> !Open(m)
    ensures r.Err? ==> r.error == Disconnected
    ensures r.Ok? ==>
              && r.value.id == m.reqId && r.value.machine.reqId == m.reqId + 1
              && (r.value.frame.Some? <==> r.value.settled == map[])
              && (r.value.frame.Some? ==> r.value.machine.pending == m.pending[m.reqId := now + RequestTimeout])
              && (r.value.frame.None? ==> r.value.machine.pending == m.pending - {m.reqId}
                                          && r.value.settled.Keys == {m.reqId}
                                          && r.value.settled[m.reqId].Rejected?)
    ensures r.Ok? ==> r.value.machine.(reqId := m.reqId, pending := m.pending, channel := m.channel) == m
    ensures Wf(m) && r.Ok? ==> r.value.id !in m.pending && Wf(r.value.machine)
  {
    if !Open(m) then Err(Disconnected)
    else
      var id := m.reqId;
      var m1 := m.(reqId := id + 1, pending := m.pending[id := now + RequestTimeout]);
      match m.channel
      case None => Ok(Sent(m1.(pending := m1.pending - {id}), id, None, map[id := Rejected(NoClient)]))
      case Some(ch) =>
        var out := C.SendMessage(c, ch, iv, Request(id, call), false);
        var m2 := m1.(channel := Some(out.channel));
        match out.frame
        case Err(e) => Ok(Sent(m2.(pending := m2.pending - {id}), id, None, map[id := Rejected(e)]))
        case Ok(f) => Ok(Sent(m2, id, Some(f), map[]))
  }

  /** Settling one request by id — by its response, its timer, or a write error
      the socket reports. An id no longer pending is left alone, so each request
      settles exactly once; other entries are untouched. */
  function Settle(m: Machine, id: nat, outcome: Completion): (r: Settled)
    ensures r.machine.pending == m.pending - {id}
    ensures r.settled == if id in m.pending then map[id := outcome] else map[]
    ensures r.machine.(pending := m.pending) == m
    ensures Wf(m) ==> Wf(r.machine)
  {
    if id in m.pending then Settled(m.(pending := m.pending - {id}), map[id := outcome])
    else Settled(m, map[])
  }

  /** The request timers that have fired by time `now`: every entry whose
      deadline has passed rejects with "timed out"; the others stay pending. */
  function ExpireDue(m: Machine, now: nat): (r: Settled)
    ensures forall k :: k in m.pending ==>
              (k in r.settled <==> m.pending[k] <= now) && (k in r.machine.pending <==> now < m.pending[k])
    ensures r.settled.Keys <= m.pending.Keys && r.machine.pending.Keys <= m.pending.Keys
    ensures forall k :: k in r.settled ==> r.settled[k] == Rejected(TimedOut)
    ensures forall k :: k in r.machine.pending ==> r.machine.pending[k] == m.pending[k]
    ensures r.machine.(pending := m.pending) == m
    ensures Wf(m) ==> Wf(r.machine)
  {
    Settled(m.(pending := map k | k in m.pending && now < m.pending[k] :: m.pending[k]),
            map k | k in m.pending && m.pending[k] <= now :: Rejected(TimedOut))
  }

  /** What can settle pending requests: a response to one id, the request
      timers firing at time `now`, or `stop()`. */
  datatype Settling = Response(id: nat, data: Value) | Timers(now: nat) | Shutdown

  /** One settling event applied to the machine. */
  function Apply(m: Machine, e: Settling): (r: Settled)
    ensures r.settled.Keys <= m.pending.Keys
    ensures r.machine.pending.Keys == m.pending.Keys - r.settled.Keys
  {
    match e
    case Response(id, data) => Settle(m, id, Resolved(data))
    case Timers(now) => ExpireDue(m, now)
    case Shutdown => Stop(m)
  }

  /** How many events of a run settle request `id`. */
  function SettleCount(m: Machine, es: seq<Settling>, id: nat): nat
    decreases |es|
  {
    if es == [] then 0
    else
      var r := Apply(m, es[0]);
      (if id in r.settled then 1 else 0) + SettleCount(r.machine, es[1..], id)
  }

  /** Every request settles at most once, whatever mix of responses, timeouts
      and stops follows, and one that is not pending never settles: a late
      response or a second timer finds nothing to settle. */
  lemma {:induction false} SettlesAtMostOnce(m: Machine, es: seq<Settling>, id: nat)
    ensures SettleCount(m, es, id) <= (if id in m.pending then 1 else 0)
    decreases |es|
  {
    if es != [] {
      var r := Apply(m, es[0]);
      SettlesAtMostOnce(r.machine, es[1..], id);
    }
  }

  /** A request `send` filed is resolved by the response that carries its id,
      with the response's data, and is then no longer pending. */
  lemma ResponseResolvesRequest(c: C.Crypto, m: Machine, iv: bytes, call: string, now: nat, data: Value)
    requires |iv| == C.IvLength
    requires Wf(m)
    requires Send(c, m, iv, call, now).Ok? && Send(c, m, iv, call, now).value.frame.Some?
    ensures var s := Send(c, m, iv, call, now).value;
            var r := Settle(s.machine, s.id, Resolved(data));
            r.settled == map[s.id := Resolved(data)] && s.id !in r.machine.pending
            && r.machine.pending == m.pending
  {
    var s := Send(c, m, iv, call, now).value;
    assert s.id !in m.pending;
    assert s.machine.pending - {s.id} == m.pending;
  }

  // ---------------------------------------------------------------- inbound

  /** What a request handler (`onRequest`) did: returned a value or threw. */
  datatype Handled = Returned(value: Value) | Threw(error: string)

  /** The reply to an inbound request `req_id`: `{res_id, data}` for a truthy
      result, the "unrecognized method" error for a falsy one, and the
      "failed to process message" error when the handler threw. */
  function Reply(reqId: nat, h: Handled): (r: Msg)
    ensures r.resId == Some(reqId) && r.reqId.None? && r.helloWorld == 0
    ensures h.Returned? && Truthy(h.value) ==> r == DataReply(reqId, h.value)
    ensures h.Returned? && !Truthy(h.value) ==> r == ErrorReply(reqId, Unrecognized)
    ensures h.Threw? ==> r == ErrorReply(reqId, ProcessingFailed)
  {
    match h
    case Returned(v) => if Truthy(v) then DataReply(reqId, v) else ErrorReply(reqId, Unrecognized)
    case Threw(_) => ErrorReply(reqId, ProcessingFailed)
  }

  /** The machine after handling one inbound message, the reply frame written
      (if any) and the requests settled. */
  datatype Handling = Handling(machine: Machine, frame: Option<bytes>, settled: map<nat, Completion>)

  /** The client's 'message' handler of `initClient`. A message with `req_id`
      is a request: the handler's outcome is answered with `Reply`, and if that
      send is refused the "failed to process message" error is sent instead. A
      message with only `res_id` settles the matching pending request with its
      `data` (any `error` field is ignored); an unknown `res_id` changes nothing.
      Anything else is dropped. */
  function OnMessage(c: C.Crypto, m: Machine, iv: bytes, msg: Msg, h: Handled): (r: Handling)
    requires |iv| == C.IvLength
    ensures msg.reqId.Some? ==> r.settled == map[] && r.machine.(channel := m.channel) == m
    ensures msg.reqId.Some? && m.channel.None? ==> r == Handling(m, None, map[])
    ensures msg.reqId.Some? && m.channel.Some? ==>
              var first := C.SendMessage(c, m.channel.value, iv, Reply(msg.reqId.value, h), false);
              && (first.frame.Ok? ==> r.frame == Some(first.frame.value) && r.machine.channel == Some(first.channel))
              && (first.frame.Err? && h.Threw? ==> r.frame.None? && r.machine.channel == Some(first.channel))
              && (first.frame.Err? && h.Returned? ==>
                    var second := C.SendMessage(c, first.channel, iv, ErrorReply(msg.reqId.value, ProcessingFailed), false);
                    && r.frame == (if second.frame.Ok? then Some(second.frame.value) else None)
                    && r.machine.channel == Some(second.channel))
    ensures msg.reqId.None? ==> r.frame.None?
    ensures msg.reqId.None? && msg.resId.Some? ==>
              && r.machine == m.(pending := m.pending - {msg.resId.value})
              && r.settled == (if msg.resId.value in m.pending then map[msg.resId.value := Resolved(msg.data)] else map[])
    ensures msg.reqId.None? && msg.resId.None? ==> r == Handling(m, None, map[])
    ensures Wf(m) ==> Wf(r.machine)
  {
    match msg.reqId
    case Some(id) =>
      (match m.channel
       case None => Handling(m, None, map[])
       case Some(ch) =>
         var first := C.SendMessage(c, ch, iv, Reply(id, h), false);
         if first.frame.Ok? then Handling(m.(channel := Some(first.channel)), Some(first.frame.value), map[])
         else if h.Threw? then Handling(m.(channel := Some(first.channel)), None, map[])
         else
           var second := C.SendMessage(c, first.channel, iv, ErrorReply(id, ProcessingFailed), false);
           Handling(m.(channel := Some(second.channel)),
                    if second.frame.Ok? then Some(second.frame.value) else None, map[]))
    case None =>
      match msg.resId
      case Some(id) =>
        var s := Settle(m, id, Resolved(msg.data));
        Handling(s.machine, None, s.settled)
      case None => Handling(m, None, map[])
  }

  /** The reply the requester decodes for handler outcome `h`, as the data its
      pending request resolves with: the handler's value if it was truthy, and
      otherwise `undefined`, because an error reply carries no `data`. */
  function ResolvedWith(h: Handled): Value {
    if h.Returned? && Truthy(h.value) then h.value else Undefined
  }

  /** The request `send` writes on an initialized, open client is delivered,
      as `{req_id, method}` with the id `send` used, by a peer channel in step. */
  lemma RequestDelivered(c: C.Crypto, q: Machine, b: C.Channel, iv1: bytes, iv2: bytes, call: string, now: nat)
    requires C.Sound(c)
    requires |iv1| == C.IvLength && |iv2| == C.IvLength
    requires Open(q) && q.channel.Some?
    requires var a := q.channel.value;
             a.initialized && C.Open(a) && H.InStep(a, b) && a.outgoing + 1 < Two32 && a.ticket < Two32
    ensures Send(c, q, iv1, call, now).Ok? && Send(c, q, iv1, call, now).value.frame.Some?
    ensures var s := Send(c, q, iv1, call, now).value;
            && s.machine.channel == Some(H.Advance(q.channel.value, 1))
            && C.Receive(c, b, iv2, s.frame.value)
               == C.Step(b.(incoming := b.incoming + 1), [], C.Deliver(Request(s.id, call)))
  {
    var a := q.channel.value;
    var req := Request(q.reqId, call);
    H.RoundTrip(c, a, b, iv1, req);
    assert Send(c, q, iv1, call, now).value.frame == Some(C.Encrypt(c, a, iv1, req).frame.value);
  }

  /** The reply the responder's handler writes for request `id` is delivered
      to the requester's channel in step with it, and the requester's handler
      settles `id` with the handler's data, or with undefined for an error
      reply. */
  lemma ReplyResolves(c: C.Crypto, m: Machine, q: Machine, iv2: bytes, iv3: bytes, id: nat, call: string, h: Handled, h': Handled)
    requires C.Sound(c)
    requires |iv2| == C.IvLength && |iv3| == C.IvLength
    requires m.channel.Some? && q.channel.Some?
    requires var b, a := m.channel.value, q.channel.value;
             b.initialized && C.Open(b) && H.InStep(b, a) && b.outgoing + 1 < Two32 && b.ticket < Two32
    requires id in q.pending
    ensures OnMessage(c, m, iv2, Request(id, call), h).frame.Some?
    ensures var back := C.Receive(c, q.channel.value, iv3, OnMessage(c, m, iv2, Request(id, call), h).frame.value);
            && back.event == C.Deliver(Reply(id, h))
            && var fin := OnMessage(c, q.(channel := Some(back.channel)), iv3, Reply(id, h), h');
               && fin.settled == map[id := Resolved(ResolvedWith(h))]
               && fin.machine.pending == q.pending - {id}
  {
    var b, a := m.channel.value, q.channel.value;
    var rep := Reply(id, h);
    H.RoundTrip(c, b, a, iv2, rep);
    assert OnMessage(c, m, iv2, Request(id, call), h).frame == Some(C.Encrypt(c, b, iv2, rep).frame.value);
  }

  /** One remote call end to end between two connected machines whose
      initialized channels are in step both ways: the requester's `send`
      writes a frame; the responder's channel delivers the request, its
      'message' handler answers; the requester's channel delivers that reply
      and its handler resolves the pending request with the handler's data,
      leaving the pending table as it was before the call. */
  lemma RequestRoundTrip(c: C.Crypto, q: Machine, m: Machine, iv1: bytes, iv2: bytes, iv3: bytes,
                         call: string, now: nat, h: Handled, h': Handled)
    requires C.Sound(c)
    requires |iv1| == C.IvLength && |iv2| == C.IvLength && |iv3| == C.IvLength
    requires Wf(q) && Open(q)
    requires q.channel.Some? && m.channel.Some?
    requires var a, b := q.channel.value, m.channel.value;
             && a.initialized && C.Open(a) && C.Open(b)
             && H.InStep(a, b) && H.InStep(b, a)
             && a.outgoing + 1 < Two32 && b.outgoing + 1 < Two32 && a.ticket < Two32
    ensures Send(c, q, iv1, call, now).Ok? && Send(c, q, iv1, call, now).value.frame.Some?
    ensures var s := Send(c, q, iv1, call, now).value;
            var got := C.Receive(c, m.channel.value, iv2, s.frame.value);
            && got.event == C.Deliver(Request(s.id, call))
            && var r := OnMessage(c, m.(channel := Some(got.channel)), iv2, Request(s.id, call), h);
               && r.frame.Some?
               && var back := C.Receive(c, s.machine.channel.value, iv3, r.frame.value);
                  && back.event == C.Deliver(Reply(s.id, h))
                  && var fin := OnMessage(c, s.machine.(channel := Some(back.channel)), iv3, Reply(s.id, h), h');
                     && fin.settled == map[s.id := Resolved(ResolvedWith(h))]
                     && fin.machine.pending == q.pending
  {
    var b := m.channel.value;
    RequestDelivered(c, q, b, iv1, iv2, call, now);
    var s := Send(c, q, iv1, call, now).value;
    var got := C.Receive(c, b, iv2, s.frame.value);
    ReplyResolves(c, m.(channel := Some(got.channel)), s.machine, iv2, iv3, s.id, call, h, h');
    ForgetAdded(q.pending, s.id, now + RequestTimeout);
  }

  /** Removing a key just added to a table that lacked it gives the table back. */
  lemma ForgetAdded(p: map<nat, nat>, k: nat, v: nat)
    requires k !in p
    ensures p[k := v] - {k} == p
  {
  }

  // ---------------------------------------------------------------- handshake and liveness

  /** The outcome of identity binding: the machine, the client's state after,
      and whether the handshake completed. */
  datatype Bound = Bound(machine: Machine, channel: C.Channel, ok: bool)

  /** The client's 'handshake_verify' handler of `initClient`. If the machine
      already has an id, the hello must carry the same one; otherwise id and
      host are adopted from the hello (they stay adopted even if a later check
      fails) and must both be non-empty; then `setClient` must accept the
      client. On success the client is told the handshake is complete; on any
      failure the client is closed and the machine left without a client. */
  function HandshakeVerify(m: Machine, ch: C.Channel, hello: Msg): (r: Bound)
    ensures r.ok <==>
              && (m.id == "" || m.id == hello.id)
              && hello.id != "" && hello.remoteAddress != ""
              && hello.remoteAddress != m.home && m.active
              && !(m.channel.Some? && C.Open(m.channel.value))
    ensures r.ok ==> r.machine == m.(id := hello.id, host := hello.remoteAddress, channel := Some(C.Complete(ch)))
    ensures r.ok ==> r.channel == C.Complete(ch)
    ensures !r.ok ==> r.machine.channel.None? && r.channel == C.Close(ch)
    ensures m.id != "" && hello.id != m.id ==> r == Bound(m.(channel := None), C.Close(ch), false)
    ensures r.machine.(id := m.id, host := m.host, channel := m.channel) == m
  {
    if m.id != "" && hello.id != m.id then
      Bound(m.(channel := None), C.Close(ch), false)
    else
      var m1 := m.(id := hello.id, host := hello.remoteAddress);
      if m1.id == "" || m1.host == "" then
        Bound(m1.(channel := None), C.Close(ch), false)
      else
        match SetClient(m1, ch)
        case Err(_) => Bound(m1.(channel := None), C.Close(ch), false)
        case Ok(a) =>
          if a.accepted then
            var done := C.Complete(ch);
            Bound(a.machine.(channel := Some(done)), done, true)
          else
            Bound(m1.(channel := None), C.Close(ch), false)
  }

  /** The outcome of the client's 'close' event: the machine after, and whether
      it emitted 'close' and re-armed a connection attempt. */
  datatype Lost = Lost(machine: Machine, emitted: bool)

  /** The client's 'close' handler: if the machine has a client it drops it,
      emits 'close' and schedules a reconnection; otherwise nothing happens. */
  function OnClose(m: Machine): (r: Lost)
    ensures r.emitted <==> m.channel.Some?
    ensures r.machine == m.(channel := None)
    ensures !Local(m) ==> !Open(r.machine)
  {
    Lost(m.(channel := None), m.channel.Some?)
  }

  /** A 'ping' or 'pong' from the peer records the time. */
  function OnPong(m: Machine, now: nat): (r: Machine)
    ensures r.lastPong == now && r.(lastPong := m.lastPong) == m
  {
    m.(lastPong := now)
  }

  /** The pong-staleness test of `schedulePing`: a pong has been seen and more
      than two intervals have passed since. */
  predicate Stale(lastPong: nat, now: nat) {
    lastPong != 0 && now - lastPong > 2 * PingInterval
  }

  /** What one ping-timer tick does. */
  datatype PingAction = Halt | Idle | Warn | Probe | StaleClose

  datatype Pinged = Pinged(machine: Machine, action: PingAction)

  /** One tick of the ping interval: an inactive machine stops its timer; a
      machine with an open client closes it when the last pong is stale and
      pings otherwise; a closed client only draws a warning. */
  function PingTick(m: Machine, now: nat): (r: Pinged)
    ensures r.action == StaleClose <==>
              m.active && m.channel.Some? && C.Open(m.channel.value) && Stale(m.lastPong, now)
    ensures r.action == StaleClose ==> r.machine == m.(channel := Some(C.Close(m.channel.value)))
    ensures r.action == StaleClose && !Local(m) ==> !Open(r.machine)
    ensures r.action != StaleClose ==> r.machine == m
    ensures r.action == Probe <==>
              m.active && m.channel.Some? && C.Open(m.channel.value) && !Stale(m.lastPong, now)
  {
    if !m.active then Pinged(m, Halt)
    else match m.channel
      case None => Pinged(m, Idle)
      case Some(ch) =>
        if !C.Open(ch) then Pinged(m, Warn)
        else if Stale(m.lastPong, now) then Pinged(m.(channel := Some(C.Close(ch))), StaleClose)
        else Pinged(m, Probe)
  }

  /** What a due connection timer does. */
  datatype Attempt = Skip | Dial

  /** `scheduleConnection`'s timer callback: only remote machines schedule
      connections; a machine that is inactive or already open skips the attempt,
      any other dials. The source asserts that the machine is remote when
      `scheduleConnection` is called, before any timer is armed; here that
      error is reported from the callback instead. */
  function ConnectionDue(m: Machine): (r: Result<Attempt>)
    ensures r.Err? <==> Local(m)
    ensures r.Ok? ==> (r.value == Dial <==> m.active && !Open(m))
  {
    if Local(m) then Err(LocalOnly)
    else if !m.active || Open(m) then Ok(Skip)
    else Ok(Dial)
  }

  /** How the promise `scheduleConnection` returned ends. */
  datatype CallerOutcome = Resolves | Rejects | NeverSettles

  /** The arguments of `scheduleConnection(time, rejectOnFail)`: the delay
      before the attempt and whether its failure rejects the caller. */
  datatype Schedule = Schedule(delay: nat, rejectOnFail: bool)

  /** The default arguments, with which a failed attempt re-arms itself. */
  const Rearmed: Schedule := Schedule(ReconnectDelay, false)

  /** The aftermath of one connection attempt: the caller's outcome, the next
      attempt armed (if any), and whether 'open' is emitted. */
  datatype Retry = Retry(caller: CallerOutcome, next: Option<Schedule>, emitOpen: bool)

  /** A skipped attempt never settles its caller's promise. A successful dial
      resolves and emits 'open'. A failed one always re-arms another attempt
      with the default arguments, and rejects only when the schedule it ran
      under asked for that. */
  function AttemptSettled(a: Attempt, connected: bool, s: Schedule): (r: Retry)
    ensures r.caller == Rejects <==> a == Dial && !connected && s.rejectOnFail
    ensures r.caller == NeverSettles <==> a == Skip
    ensures r.next == (if a == Dial && !connected then Some(Rearmed) else None)
    ensures r.emitOpen <==> a == Dial && connected
  {
    match a
    case Skip => Retry(NeverSettles, None, false)
    case Dial =>
      if connected then Retry(Resolves, None, true)
      else Retry(if s.rejectOnFail then Rejects else Resolves, Some(Rearmed), false)
  }

  /** A chain of connection attempts started by one `scheduleConnection` call:
      each attempt runs under the schedule the previous one armed, with the
      dial outcome `outcomes[i]`; the chain ends at the first attempt that arms
      nothing. */
  function Chain(s: Schedule, outcomes: seq<(Attempt, bool)>): (r: seq<(Schedule, Retry)>)
    ensures |r| <= |outcomes|
    decreases |outcomes|
  {
    if outcomes == [] then []
    else
      var first := AttemptSettled(outcomes[0].0, outcomes[0].1, s);
      [(s, first)] + (match first.next case None => [] case Some(n) => Chain(n, outcomes[1..]))
  }

  /** Only the first attempt of a chain can reject its caller: it runs under
      the caller's schedule, and every later attempt follows a failed dial and
      runs under the defaults (5000 ms, no rejection), so a failure there is
      only logged and retried. */
  lemma {:induction false} OnlyFirstAttemptRejects(s: Schedule, outcomes: seq<(Attempt, bool)>)
    ensures |Chain(s, outcomes)| > 0 ==> Chain(s, outcomes)[0].0 == s
    ensures forall i :: 0 < i < |Chain(s, outcomes)| ==>
              && Chain(s, outcomes)[i].0 == Rearmed
              && outcomes[i - 1] == (Dial, false)
              && Chain(s, outcomes)[i].1.caller != Rejects
    decreases |outcomes|
  {
    if outcomes != [] {
      var first := AttemptSettled(outcomes[0].0, outcomes[0].1, s);
      if first.next.Some? {
        var tail := Chain(Rearmed, outcomes[1..]);
        OnlyFirstAttemptRejects(Rearmed, outcomes[1..]);
        var r := Chain(s, outcomes);
        assert first.next == Some(Rearmed);
        assert r == [(s, first)] + tail;
        forall i | 0 < i < |r|
          ensures r[i].0 == Rearmed && outcomes[i - 1] == (Dial, false) && r[i].1.caller != Rejects
        {
          assert r[i] == tail[i - 1];
          if i > 1 {
            assert outcomes[1..][i - 2] == outcomes[i - 1];
          }
        }
      }
    }
  }

  /** The client a dial creates: a fresh dialling-side channel whose first
      counter is spent on the `{type}` classification header. */
  function DialChannel(c: C.Crypto, env: C.Env, m: Machine, iv: bytes): (r: C.Outgoing)
    requires |iv| == C.IvLength
    ensures r.channel == C.NewChannel(env, false, false).(outgoing := 1)
    ensures r.frame.Ok?
  {
    C.Encrypt(c, C.NewChannel(env, false, false), iv, TypeHeader(TypeName(m.kind)))
  }

  // ---------------------------------------------------------------- runs of transitions

  /** Every transition of one machine the model covers. */
  datatype Transition =
    | DoStart
    | DoStop
    | DoSetClient(ch: C.Channel)
    | DoSend(iv: bytes, call: string, now: nat)
    | DoSettle(id: nat, outcome: Completion)
    | DoExpire(now: nat)
    | DoReceive(iv: bytes, msg: Msg, h: Handled)
    | DoVerify(ch: C.Channel, hello: Msg)
    | DoClose
    | DoPong(now: nat)
    | DoPing(now: nat)

  /** The IVs a transition encrypts with are 12 random bytes. */
  predicate ValidTransition(t: Transition) {
    (t.DoSend? || t.DoReceive?) ==> |t.iv| == C.IvLength
  }

  /** The machine after one transition; one that throws leaves it as it was.
      Only a `send` that gets past the `open` check consumes a request id. */
  function Next(c: C.Crypto, m: Machine, t: Transition): (r: Machine)
    requires ValidTransition(t)
    ensures r.reqId == m.reqId + (if t.DoSend? && Open(m) then 1 else 0)
    ensures Wf(m) ==> Wf(r)
  {
    match t
    case DoStart => Start(m)
    case DoStop => Stop(m).machine
    case DoSetClient(ch) => (match SetClient(m, ch) case Ok(a) => a.machine case Err(_) => m)
    case DoSend(iv, call, now) => (match Send(c, m, iv, call, now) case Ok(s) => s.machine case Err(_) => m)
    case DoSettle(id, outcome) => Settle(m, id, outcome).machine
    case DoExpire(now) => ExpireDue(m, now).machine
    case DoReceive(iv, msg, h) => OnMessage(c, m, iv, msg, h).machine
    case DoVerify(ch, hello) => HandshakeVerify(m, ch, hello).machine
    case DoClose => OnClose(m).machine
    case DoPong(now) => OnPong(m, now)
    case DoPing(now) => PingTick(m, now).machine
  }

  /** The machine after a run of transitions. */
  function Run(c: C.Crypto, m: Machine, ts: seq<Transition>): Machine
    requires forall i :: 0 <= i < |ts| ==> ValidTransition(ts[i])
    decreases |ts|
  {
    if ts == [] then m else Run(c, Next(c, m, ts[0]), ts[1..])
  }

  /** The request ids the successful `send`s of a run used, in order. */
  function IdsUsed(c: C.Crypto, m: Machine, ts: seq<Transition>): seq<nat>
    requires forall i :: 0 <= i < |ts| ==> ValidTransition(ts[i])
    decreases |ts|
  {
    if ts == [] then []
    else
      var t := ts[0];
      (if t.DoSend? && Open(m) then [m.reqId] else []) + IdsUsed(c, Next(c, m, t), ts[1..])
  }

  /** `ids` strictly increases and lies in `[lo, hi)`. */
  predicate Ascending(ids: seq<nat>, lo: nat, hi: nat) {
    && (forall i, j :: 0 <= i < j < |ids| ==> ids[i] < ids[j])
    && (forall i :: 0 <= i < |ids| ==> lo <= ids[i] < hi)
  }

  /** Putting an id below an ascending run in front keeps it ascending. */
  lemma AscendingCons(x: nat, ids: seq<nat>, lo: nat, hi: nat)
    requires Ascending(ids, x + 1, hi) && lo <= x < hi
    ensures Ascending([x] + ids, lo, hi)
  {
    var s := [x] + ids;
    forall i, j | 0 <= i < j < |s|
      ensures s[i] < s[j]
    {
      assert s[j] == ids[j - 1];
      if i > 0 {
        assert s[i] == ids[i - 1];
      }
    }
  }

  /** A request id is never handed out twice: over any run of transitions the
      ids successive sends use strictly increase and lie between the starting
      `reqId` and the final one, and the pending table only ever holds ids
      already handed out. */
  lemma {:induction false} IdsNeverReused(c: C.Crypto, m: Machine, ts: seq<Transition>)
    requires forall i :: 0 <= i < |ts| ==> ValidTransition(ts[i])
    ensures Ascending(IdsUsed(c, m, ts), m.reqId, Run(c, m, ts).reqId)
    ensures m.reqId <= Run(c, m, ts).reqId
    ensures Wf(m) ==> Wf(Run(c, m, ts))
    decreases |ts|
  {
    if ts != [] {
      var m1 := Next(c, m, ts[0]);
      IdsNeverReused(c, m1, ts[1..]);
      var rest, last := IdsUsed(c, m1, ts[1..]), Run(c, m1, ts[1..]);
      if ts[0].DoSend? && Open(m) {
        AscendingCons(m.reqId, rest, m.reqId, last.reqId);
        assert IdsUsed(c, m, ts) == [m.reqId] + rest;
      } else {
        assert IdsUsed(c, m, ts) == rest;
      }
    }
  }
}

=== FILE: string_order.dfy ===
/** The order JavaScript's `<` puts on strings, which the election sorts by:
    lexicographic on characters, a proper prefix coming first. */
module StringOrder {

  /** `a < b` on strings. */
  predicate Below(a: string, b: string)
    decreases |a|
  {
    if |a| == 0 then |b| > 0
    else |b| > 0 && (a[0] < b[0] || (a[0] == b[0] && Below(a[1..], b[1..])))
  }

  lemma {:induction false} BelowIrreflexive(a: string)
    ensures !Below(a, a)
    decreases |a|
  {
    if |a| > 0 {
      BelowIrreflexive(a[1..]);
    }
  }

  lemma {:induction false} BelowTransitive(a: string, b: string, c: string)
    requires Below(a, b) && Below(b, c)
    ensures Below(a, c)
    decreases |a|
  {
    if |a| > 0 && a[0] == b[0] && b[0] == c[0] {
      BelowTransitive(a[1..], b[1..], c[1..]);
    }
  }

  /** Any two distinct strings are ordered one way or the other. */
  lemma {:induction false} BelowTotal(a: string, b: string)
    ensures a == b || Below(a, b) || Below(b, a)
    decreases |a|
  {
    if |a| > 0 && |b| > 0 && a[0] == b[0] {
      BelowTotal(a[1..], b[1..]);
      assert a == [a[0]] + a[1..] && b == [b[0]] + b[1..];
    }
  }

  /** `x` is the smallest element of `s`. */
  predicate IsLeast(x: string, s: set<string>) {
    x in s && forall y :: y in s && y != x ==> Below(x, y)
  }

  /** Every non-empty finite set of strings has a smallest element. */
  lemma {:induction false} LeastExists(s: set<string>)
    requires s != {}
    ensures exists x :: IsLeast(x, s)
    decreases |s|
  {
    var y :| y in s;
    if s == {y} {
      assert IsLeast(y, s);
    } else {
      LeastExists(s - {y});
      var x :| IsLeast(x, s - {y});
      BelowTotal(x, y);
      if Below(x, y) {
        assert IsLeast(x, s);
      } else {
        forall z | z in s && z != y
          ensures Below(y, z)
        {
          if z != x {
            BelowTransitive(y, x, z);
          }
        }
        assert IsLeast(y, s);
      }
    }
  }

  /** The smallest element is unique. */
  lemma LeastUnique(s: set<string>)
    ensures forall x, x' :: IsLeast(x, s) && IsLeast(x', s) ==> x == x'
  {
    forall x, x' | IsLeast(x, s) && IsLeast(x', s)
      ensures x == x'
    {
      if x != x' {
        BelowTransitive(x, x', x);
        BelowIrreflexive(x);
        assert false;
      }
    }
  }

  /** The first element of `s` once sorted ascending. */
  function Least(s: set<string>): (x: string)
    requires s != {}
    ensures IsLeast(x, s)
  {
    LeastExists(s);
    LeastUnique(s);
    var x :| IsLeast(x, s);
    x
  }
}

=== FILE: wire.dfy ===
/** The JSON messages exchanged over a channel, reduced to the fields the core
    reads or writes. JSON stringify/parse themselves are not modelled: the channel
    treats them as opaque functions. */
module Wire {
  import opened Wrappers

  /** The JSON values that occur as payloads (`data`) in the core: a reply body
      is an object such as `{master: id}`. Nested objects are flattened to
      string-valued fields, which is all the core produces. */
  datatype Value =
    | Undefined
    | Bool(b: bool)
    | Num(n: int)
    | Str(s: string)
    | Obj(fields: map<string, string>)

  /** JavaScript truthiness, as used by `if (resp)` on a request handler's result. */
  predicate Truthy(v: Value) {
    match v
    case Undefined => false
    case Bool(b) => b
    case Num(n) => n != 0
    case Str(s) => s != ""
    case Obj(_) => true
  }

  /** One decrypted message. Fields the source only tests for truthiness
      (`hello_world`, `id`, `remote_address`, `error`) use 0 or "" for "absent";
      `req_id` and `res_id` are compared with `undefined` and so are optional. */
  datatype Msg = Msg(
    helloWorld: nat,
    id: string,
    remoteAddress: string,
    reqId: Option<nat>,
    call: string,
    resId: Option<nat>,
    data: Value,
    error: string,
    machineType: string)

  /** The message `{}`. */
  const Empty: Msg := Msg(0, "", "", None, "", None, Undefined, "", "")

  /** `{hello_world: ticket, id, remote_address}` (client.ts sendHello). */
  function Hello(ticket: nat, id: string, address: string): Msg {
    Empty.(helloWorld := ticket, id := id, remoteAddress := address)
  }

  /** `{req_id, method}` (generic_machine.ts send); `call` is the `method` field. */
  function Request(reqId: nat, call: string): Msg {
    Empty.(reqId := Some(reqId), call := call)
  }

  /** `{res_id, data}`. */
  function DataReply(resId: nat, data: Value): Msg {
    Empty.(resId := Some(resId), data := data)
  }

  /** `{res_id, error}`. */
  function ErrorReply(resId: nat, error: string): Msg {
    Empty.(resId := Some(resId), error := error)
  }

  /** The connection-classification header `{type}` a dialling machine encrypts. */
  function TypeHeader(machineType: string): Msg {
    Empty.(machineType := machineType)
  }
}

=== FILE: wrappers.dfy ===
/** Failure-carrying datatypes shared by every module of the model.
    The daemon signals failure by throwing an `Error` with a message; the model
    returns `Err(message)` instead. */
module Wrappers {

  /** A value that may be absent (the source's `undefined`). */
  datatype Option<+T> = None | Some(value: T)

  /** The outcome of an operation that can throw: its value, or the message of
      the error it throws or rejects with. */
  datatype Result<+T> = Ok(value: T) | Err(error: string) {

    predicate IsFailure() {
      Err?
    }

    function PropagateFailure<U>(): Result<U>
      requires Err?
    {
      Err(error)
    }

    function Extract(): T
      requires Ok?
    {
      value
    }
  }
}
